=== FILE: README.md ===
# xpy console core in Dafny

This project models the decision logic of the xpy interactive Python console. It covers six pieces:

- **Intake.** How a submitted line becomes the unit that runs next (`compile_source`), including the `.` repeat shortcut, the `None` substitution for blank input and the choice between `exec` and `single` mode.
- **Macro recorder.** The `record`, `stop` and `play` calls, and the input queue that the read-eval loop drains.
- **Loop turn.** One turn of the read-eval loop: drain or read, compile, pollute, run, then record the source.
- **Traceback renderer.** It walks the frame chain and prints a ±3-line window per frame, with colour rules and one path header per run of frames from the same file. It also prints the exception line, with the split of a syntax error's text around its offset.
- **Pollution merge.** Helper names are bound into the console's scopes and the session is bound as `xpy`, with shadowing warnings.
- **Clip and History.** Indent normalisation of pasted code (`Clip.indent_len`, `Clip.minimize_indent`) and the history window (`History.get_last`).

The interpreter's `compile` and `exec` are opaque parameters: `compiles` says whether a unit compiles, and `exec` says which recorder calls a unit makes. Frames carry the source lines the renderer would read from disk. Colours are tags rather than ANSI strings.

Modules, one concept each:

| module | file | contents |
|---|---|---|
| `Options` | options.dfy | `Option` |
| `Text` | text.dfy | Python's `str.isspace`, `strip`, `lstrip(chars)`, `rstrip`, `split`, `join` and slicing |
| `Seqs` | seqs.dfy | `filter` and subsequences |
| `Intake` | intake.dfy | `compile_source` |
| `Macro` | macro.dfy | `record`, `stop`, `play`, the queue drain and the record-after-run step |
| `Console` | console.dfy | one loop turn combining the above with pollution |
| `Pollution` | pollution.dfy | `pollute`, as written and corrected |
| `Traceback` | traceback.dfy | `get_traceback_top`, `print_backframes`, `print_exception` |
| `Clip` | clip.dfy | `indent_len`, `minimize_indent` |
| `History` | history.dfy | `get_last` |

## Model

| member | source | states |
|---|---|---|
| Intake.ModeFor | xpy/XPY.py:504-507 | The mode is `exec` exactly when the text contains a newline; otherwise it is `single`. |
| Intake.CompileSource | xpy/XPY.py:485-509 | The source list never loses or changes an entry and grows by at most one. A compiled or failed unit is the appended text, in the mode that text calls for. A repeat, or a failed repeat, leaves the session untouched. |
| Intake.DotRepeats | xpy/XPY.py:487-492 | A `.` after trailing whitespace is stripped, with sources present, appends nothing and compiles nothing. It re-runs the existing code, or fails when there is no code. |
| Intake.NoneSubstituted | xpy/XPY.py:488-500 | A `.` with no sources, or a blank input, appends and compiles the literal `None` as a single statement. |
| Intake.FreshInput | xpy/XPY.py:495-508 | Any other input appends exactly its right-stripped text. The session holds code afterwards exactly when that text compiles. |
| Intake.CodeMatchesLastPreserved | xpy/XPY.py:485-509 | Whenever the session holds code, that code was compiled from the last source text in its proper mode; intake preserves this. |
| Macro.Record | xpy/XPY.py:204-209 | When not recording, `record` turns recording on with an empty macro. When already recording, it changes nothing. The queue is never touched. |
| Macro.Stop | xpy/XPY.py:212-222 | When recording, `stop` turns recording off and drops exactly the first macro entry; an empty macro stays empty. When not recording, it changes nothing. |
| Macro.Play | xpy/XPY.py:224-229 | `play` stops, then appends the macro to the end of the queue and keeps the macro. |
| Macro.Drain | xpy/XPY.py:299-305 | A non-empty queue is taken whole, as its entries joined by newlines, and left empty. An empty queue yields nothing. |
| Macro.DrainSplitsBack | xpy/XPY.py:299-305 | The drained source splits back into the queued entries when none of them holds a newline. |
| Macro.AfterRun | xpy/XPY.py:333-336 | A source joins the end of the macro exactly when recording is on after it has run. |
| Macro.FeedAppends | xpy/XPY.py:333-336 | While recording, feeding lines appends exactly those lines, in order. Otherwise the recorder is unchanged. |
| Macro.MacroCaptures | xpy/XPY.py:204-222 | The line that calls `record`, then `lines`, then the line that calls `stop` leave exactly `lines` in the macro. |
| Macro.PlayThenDrain | xpy/XPY.py:224-229 | `play` on an empty queue, then a drain, yields a source whose lines are the macro. The macro is kept and the queue ends empty. |
| Macro.StopRecordIdempotent | xpy/XPY.py:204-222 | Calling `stop` twice is the same as calling it once, and likewise for `record`. |
| Console.Step | xpy/XPY.py:293-336 | The queue wins over the terminal, and an interrupted read changes nothing. The source goes through `compile_source`, which decides the session and the intake. A unit that runs is preceded by `pollute` as written when pollution is on; otherwise the scopes are untouched and nothing is printed. The drained recorder then takes the unit's `record`, `stop` and `play` calls, and the source joins the macro exactly when recording is on after the run. |
| Console.QueueConsumed | xpy/XPY.py:299-305 | If the unit makes no recorder call, the whole queue runs as one source and the queue ends empty. |
| Console.FailedSourceRecorded | xpy/XPY.py:425-433 | A source that fails to compile is still recorded while recording, and nothing is polluted. |
| Console.PlayQueuesMacro | xpy/XPY.py:224-229 | A unit that calls `play`, with nothing queued, first stops any live recording, which drops the line that started it. It then leaves the kept macro queued, with recording off. |
| Console.PlayRunsNextTurn | xpy/XPY.py:299-305 | The turn after a `play` runs the kept macro as one source, whatever the terminal gives, whose lines are the macro's entries; this holds whether or not the `play` stopped a live recording. |
| Pollution.Pollute | xpy/XPY.py:635-658 | Every public helper ends up bound to its value in the outer scope, except `xpy` in a shared scope. The session ends up bound as `xpy` in the inner scope. Warnings are global ones, or the single local one. |
| Pollution.UpdateAll | xpy/XPY.py:647 | `g.update(entries)` binds every entry and keeps every other name. |
| Pollution.GlobalLoop | xpy/XPY.py:641-647 | The loop leaves every pollution name bound in the outer scope, and prints at most one warning per item, all of them global. |
| Pollution.PolluteWarningsAsWritten | xpy/XPY.py:641-656 | As written, only the first pollution name can draw a global warning. The local warning is checked after the update. |
| Pollution.PolluteKeepsOthers | xpy/XPY.py:635-658 | Names that are neither helpers nor `xpy` keep their bindings in both scopes. |
| Pollution.PolluteSettled | xpy/XPY.py:635-658 | Scopes that already hold every helper and the session are unchanged, and no warning is printed. |
| Pollution.PolluteIdempotent | xpy/XPY.py:635-658 | A second `pollute` changes neither scope and prints nothing. |
| Pollution.OnlyFirstShadowReported | xpy/XPY.py:641-647 | Two helpers that both rebind globals: as written only the first is reported, while the corrected check reports the second as well. |
| Pollution.CheckAll | xpy/XPY.py:641-645 | A global warning names `k` exactly when some pollution item binds `k` and the scope already binds `k` to another value. |
| Pollution.PolluteChecked | xpy/XPY.py:635-658 | The corrected `pollute` warns about exactly the shadowed globals. |
| Pollution.PolluteCheckedAgrees | xpy/XPY.py:635-658 | The corrected `pollute` yields the same scopes as the one as written, and every warning the original prints. |
| Traceback.GetTracebackTop | xpy/XPY.py:543-550 | The top frame is the frame of the last link reached through `tb_next`. |
| Traceback.WalkReversed | xpy/XPY.py:560-564 | The `f_back` walk, reversed, is the chain from the outermost caller. |
| Traceback.Backframes | xpy/XPY.py:560-564 | The frame list runs from the outermost caller to the top frame, which comes last. |
| Traceback.ColorOf | xpy/XPY.py:594-615 | In the failing frame, the failing line is red and wins over the yellow current line. Elsewhere the current line is magenta in the interactive unit and red otherwise. Every other line is plain. |
| Traceback.WindowContextLines | xpy/XPY.py:592-619 | A context line appears exactly for each source line less than three from the reference line, with its colour, number and right-stripped text. |
| Traceback.WindowEllipsis | xpy/XPY.py:616-621 | An ellipsis appears exactly when some line is three away from the reference line. A window never holds a path header. |
| Traceback.WindowEllipsisCount | xpy/XPY.py:616-621 | A window holds one ellipsis for each line exactly three from the reference line, so two when both edges lie inside the frame. |
| Traceback.WindowInLineOrder | xpy/XPY.py:592-619 | The context lines of a window appear in strictly increasing line order. |
| Traceback.WindowClosedForm | xpy/XPY.py:593-621 | A frame's window is, in order: an ellipsis if the frame has the line three before the reference line, the context lines from two before to two after it that the frame has, each with its colour, number and right-stripped text, then an ellipsis if the frame has the line three after it. |
| Traceback.WindowAtMostSeven | xpy/XPY.py:616-621 | A frame prints at most seven items. |
| Traceback.Layout | xpy/XPY.py:553-621 | No frames render nothing. Otherwise the rendering opens with the header of the outermost frame's path. |
| Traceback.PrintTraceback | xpy/XPY.py:537-540 | The rendering is the layout of the chain ending at the innermost traceback frame, and it opens with the outermost frame's path header. |
| Traceback.LayoutIsBlocks | xpy/XPY.py:566-579 | The rendering is, frame by frame from the outermost, a header when the path differs from the previous frame's (always for the first frame), then the frame's window. |
| Traceback.SamePathOneHeader | xpy/XPY.py:566-579 | Frames that share one path get exactly one header, first. |
| Traceback.SyntaxParts | xpy/XPY.py:628-630 | For an offset of at least one, the three parts reconstruct the text and the middle part is the character at the offset. |
| Traceback.ZeroOffsetRepeats | xpy/XPY.py:630 | With offset zero, Python's negative slicing makes the parts fail to reconstruct a text of two or more characters. |
| Traceback.MarkedLine | xpy/XPY.py:629-630 | For an offset of at least one, the printed syntax line is a prefix of the text and only whitespace is dropped from its end. For an offset within the text, the marked part is the character at the offset and the part before it is the text up to there. |
| Traceback.PrintException | xpy/XPY.py:624-632 | The exception name comes first, with the message only when it is non-empty. A syntax error adds one line: plain when there is no offset, and otherwise the split line `Traceback.MarkedLine` describes. |
| Clip.IndentLen | xpy/Clip.py:28-29 | The indent is the length of the leading run of tabs and spaces. |
| Clip.SurvivorsAreKeptLines | xpy/Clip.py:33-35 | A line survives exactly when its stripped form is non-empty and does not start with `#`; surviving lines keep their order, and every occurrence of a kept line survives, repeats included. |
| Clip.CutLinesShape | xpy/Clip.py:36-37 | There is one output line per surviving line. Each is that line with exactly the minimum indent removed, and the removed characters are tabs or spaces. |
| Clip.CutLinesNotBlankOrComment | xpy/Clip.py:33-37 | Cutting the indent keeps each line's stripped form, so no output line is blank or a comment. |
| Clip.NoSurvivorsGivesEmpty | xpy/Clip.py:33-37 | An input with no surviving line yields the empty string. |
| Clip.SomeLineAtColumnZero | xpy/Clip.py:36-37 | When any line survives, some output line has indent zero. |
| Clip.MinimizeIndent | xpy/Clip.py:31-39 | The result's lines are the cut surviving lines; with no survivor the result is empty. |
| Clip.MinimizeIdempotent | xpy/Clip.py:31-39 | Applying `minimize_indent` twice gives the same result as applying it once. |
| History.GetLast | xpy/History.py:10-16 | The result holds `min(n, L)` items, or none when `n <= 0`. They are the last items of the history, in order. |

## Left out

- Executing units: `compile` and `exec` are opaque. `exec`'s bindings in the scopes and its output are not modelled. Only the recorder calls a unit makes are kept.
- Reading the terminal: the read result is a parameter, and `None` stands for an interrupted read. End of input, which ends the loop, is not modelled.
- Prompt, timing and `format_times`: these are floating point and clocks.
- `getsourcelines`: reading files and decoding line tables. Frames carry their lines instead, and a frame whose lines cannot be read carries none.
- The source-list fallback in `print_backframes` when reading a frame's lines fails: it tests `frame.f_code == self.code`, and `self.code` (set to `None` in `__init__`, and the class attribute likewise) is never reassigned, so the branch cannot fire. For the same reason the magenta colour is unreachable in the program as written. The model keeps the interactive flag as frame data so the colour rule can be stated.
- `is_top_only` is the constant `False` in the source. The `break` branches it guards are dead and are not modelled.
- `print_traceback` passes no traceback entry to `print_backframes`. It is modelled with no failing frame. The failing-frame colours apply only when a caller passes the entry.
- `Traceback.PrintException`: a syntax error whose `text` is `None` is not modelled. Each syntax error carries a text.
- `Pollution.PolluteIdempotent`: it requires that no helper is itself named `xpy` when the two scopes are one mapping. Otherwise the second call rebinds that name from the helper to the session and back.
- Pollution keeps Python dictionary order as the order of `helpers`. Distinct names are assumed where a dict guarantees them.
- Resumable exceptions (greenlet), `ShadowDict` (under `if 0:`), fork-based checkpoints and history files, the busy flag, tab completion and tracing, module reloading, the clipboard and exec helpers of `Clip`, plotting, and the interactive test launcher. All of these are I/O, concurrency or dead code.
- History items are an uninterpreted accessor. GNU readline's one-based numbering is left to it.
- `play`: the macro is appended to the end of the queue and kept, as the code does.

## Findings

| source | as written | input that shows it | evidently intended | confidence | as-written member | corrected member |
|---|---|---|---|---|---|---|
| xpy/XPY.py:641-647 | `g.update(pollution)` runs inside the loop, so after the first item every later check sees the helpers already bound and no later name is reported | outer scope `{a: 0, b: 0}` and helpers `a = 1`, `b = 1`: only `a` is reported | every helper name that rebinds an existing global is reported, with the update run once | high (not executed) | Pollution.PolluteWarningsAsWritten | Pollution.PolluteChecked |

The loop turn in `Console.Step` calls `pollute` as written, so its warnings are the ones the program prints. `Pollution.PolluteCheckedAgrees` shows that the corrected version leaves the same scopes. `Pollution.OnlyFirstShadowReported` is the counterexample above.

=== FILE: clip.dfy ===
/** Indent normalisation of pasted source (`Clip.indent_len` and
    `Clip.minimize_indent`): blank and comment lines are dropped and the
    common leading indent of the rest is removed. */
module Clip {
  import opened Text
  import opened Options
  import opened Seqs

  /** `Clip.indent_len`: the length of the leading run of tabs and spaces. */
  function IndentLen(line: string): (r: nat)
    ensures r <= |line|
    ensures forall i :: 0 <= i < r ==> IsBlank(line[i])
    ensures r == |line| || !IsBlank(line[r])
  {
    |line| - |LStripBy(line, IsBlank)|
  }

  /** Removing part of the indent shortens the indent by that much. */
  lemma IndentAfterCut(line: string, m: nat)
    requires m <= IndentLen(line)
    ensures IndentLen(line[m..]) == IndentLen(line) - m
  {
    LStripBySkip(line, IsBlank, m);
  }

  /** The first filter: the line is not empty once stripped. */
  predicate NotBlank(line: string)
  {
    |Strip(line)| > 0
  }

  /** The second filter: the stripped line does not start with `#`. */
  predicate NotComment(line: string)
  {
    !(|Strip(line)| > 0 && Strip(line)[0] == '#')
  }

  /** A line both filters keep. */
  predicate Kept(line: string)
  {
    NotBlank(line) && NotComment(line)
  }

  /** The lines of `source` that both filters keep, in their order. */
  function Survivors(source: string): seq<string>
  {
    Filter(Filter(Split(source, '\n'), NotBlank), NotComment)
  }

  /** The indents of `lines`, in order. */
  function Indents(lines: seq<string>): (r: seq<nat>)
    ensures |r| == |lines|
    ensures forall k :: 0 <= k < |lines| ==> r[k] == IndentLen(lines[k])
  {
    seq(|lines|, k requires 0 <= k < |lines| => IndentLen(lines[k]))
  }

  /** The running minimum of the indents of `lines`, starting from `acc`. */
  function MinIndentFrom(acc: Option<nat>, lines: seq<string>): (r: Option<nat>)
    ensures r.None? <==> acc.None? && |lines| == 0
    ensures r.Some? ==> forall k :: 0 <= k < |lines| ==> r.value <= IndentLen(lines[k])
    ensures r.Some? && acc.Some? ==> r.value <= acc.value
    ensures r.Some? ==> (acc.Some? && r.value == acc.value) || r.value in Indents(lines)
    decreases |lines|
  {
    if |lines| == 0 then acc
    else
      var i := IndentLen(lines[0]);
      var next := if acc.None? then Some(i) else Some(if acc.value <= i then acc.value else i);
      var r := MinIndentFrom(next, lines[1..]);
      IndentsCons(lines);
      BelowAllCons(lines, r.value);
      r
  }

  /** The indents of a non-empty list are the first line's, then the rest's. */
  lemma IndentsCons(lines: seq<string>)
    requires |lines| > 0
    ensures Indents(lines) == [IndentLen(lines[0])] + Indents(lines[1..])
  {
  }

  /** A bound on the first line's indent and on the rest's bounds them all. */
  lemma BelowAllCons(lines: seq<string>, v: nat)
    requires |lines| > 0 && v <= IndentLen(lines[0])
    requires forall k :: 0 <= k < |lines[1..]| ==> v <= IndentLen(lines[1..][k])
    ensures forall k :: 0 <= k < |lines| ==> v <= IndentLen(lines[k])
  {
    forall k | 1 <= k < |lines| ensures v <= IndentLen(lines[k]) {
      assert lines[k] == lines[1..][k - 1];
    }
  }

  /** The smallest indent among `lines`, or `None` when there are none. */
  function MinIndent(lines: seq<string>): (r: Option<nat>)
  {
    MinIndentFrom(None, lines)
  }

  /** The surviving lines with the common indent cut off each. */
  function CutLines(source: string): (r: seq<string>)
  {
    var lines := Survivors(source);
    var m := MinIndent(lines);
    if m.None? then [] else seq(|lines|, k requires 0 <= k < |lines| => lines[k][m.value..])
  }

  /** `Clip.minimize_indent`: the lines of the result are the cut lines,
      and no surviving line gives the empty text. */
  function MinimizeIndent(source: string): (r: string)
    ensures |Survivors(source)| == 0 ==> r == ""
    ensures |Survivors(source)| > 0 ==> Split(r, '\n') == CutLines(source)
  {
    var cut := CutLines(source);
    CutLinesHaveNoBreak(source);
    if |cut| > 0 then (SplitJoin(cut, '\n'); Join(cut, '\n')) else Join(cut, '\n')
  }

  /** Every output line is a surviving input line with exactly the common
      indent removed, and the removed characters are tabs or spaces. */
  lemma CutLinesShape(source: string)
    ensures |CutLines(source)| == |Survivors(source)|
    ensures |Survivors(source)| > 0 ==>
      var m := MinIndent(Survivors(source)).value;
      forall k :: 0 <= k < |Survivors(source)| ==>
        m <= |Survivors(source)[k]|
        && CutLines(source)[k] == Survivors(source)[k][m..]
        && forall i :: 0 <= i < m ==> IsBlank(Survivors(source)[k][i])
  {
    var lines := Survivors(source);
    if |lines| > 0 {
      var m := MinIndent(lines).value;
      forall k | 0 <= k < |lines|
        ensures m <= |lines[k]| && CutLines(source)[k] == lines[k][m..]
        ensures forall i :: 0 <= i < m ==> IsBlank(lines[k][i])
      {
        assert m <= IndentLen(lines[k]);
      }
    }
  }

  /** The surviving lines are the input lines that are neither blank nor
      comments, in their original order, every occurrence of a kept line
      included. */
  lemma SurvivorsAreKeptLines(source: string)
    ensures IsSubsequence(Survivors(source), Split(source, '\n'))
    ensures |Survivors(source)| <= |Split(source, '\n')|
    ensures forall line :: line in Survivors(source) <==>
      line in Split(source, '\n') && NotBlank(line) && NotComment(line)
    ensures forall line ::
      multiset(Survivors(source))[line] == if Kept(line) then multiset(Split(source, '\n'))[line] else 0
  {
    var lines := Split(source, '\n');
    FilterTwice(lines, NotBlank, NotComment, Kept);
    FilterKeepsOrder(lines, Kept);
    forall line
      ensures multiset(Survivors(source))[line] == if Kept(line) then multiset(lines)[line] else 0
    {
      FilterCount(lines, Kept, line);
    }
  }

  /** Cutting the indent keeps each line's stripped form, so no output line
      is blank or a comment. */
  lemma {:induction false} CutLinesNotBlankOrComment(source: string)
    ensures forall k :: 0 <= k < |CutLines(source)| ==>
      Strip(CutLines(source)[k]) == Strip(Survivors(source)[k])
      && NotBlank(CutLines(source)[k]) && NotComment(CutLines(source)[k])
  {
    var lines := Survivors(source);
    if |lines| > 0 {
      var m := MinIndent(lines).value;
      forall k | 0 <= k < |lines|
        ensures Strip(CutLines(source)[k]) == Strip(lines[k])
      {
        forall i | 0 <= i < m ensures IsSpace(lines[k][i]) {
          BlankIsSpace(lines[k][i]);
        }
        StripSkip(lines[k], m);
      }
      FilterTwice(Split(source, '\n'), NotBlank, NotComment, Kept);
    }
  }

  /** With no surviving line the result is the empty string. */
  lemma NoSurvivorsGivesEmpty(source: string)
    requires |Survivors(source)| == 0
    ensures MinimizeIndent(source) == ""
  {
  }

  /** No surviving or cut line contains a line break. */
  lemma CutLinesHaveNoBreak(source: string)
    ensures forall k :: 0 <= k < |CutLines(source)| ==> '\n' !in CutLines(source)[k]
  {
    var lines := Survivors(source);
    SurvivorsAreKeptLines(source);
    CutLinesShape(source);
    forall k | 0 <= k < |CutLines(source)| ensures '\n' !in CutLines(source)[k] {
      assert lines[k] in lines;
      assert lines[k] in Split(source, '\n');
      var m := MinIndent(lines).value;
      assert CutLines(source)[k] == lines[k][m..];
      assert '\n' !in lines[k];
    }
  }

  /** When a line survives, the output splits back into the cut lines and
      one of them starts at column zero. */
  lemma {:induction false} SomeLineAtColumnZero(source: string)
    requires |Survivors(source)| > 0
    ensures Split(MinimizeIndent(source), '\n') == CutLines(source)
    ensures exists k :: 0 <= k < |CutLines(source)| && IndentLen(CutLines(source)[k]) == 0
  {
    var lines := Survivors(source);
    var m := MinIndent(lines).value;
    CutLinesHaveNoBreak(source);
    SplitJoin(CutLines(source), '\n');
    var k :| 0 <= k < |lines| && Indents(lines)[k] == m;
    IndentAfterCut(lines[k], m);
    assert CutLines(source)[k] == lines[k][m..];
  }

  /** Lines that include one at column zero have minimum indent zero. */
  lemma MinIndentZero(lines: seq<string>, k: nat)
    requires k < |lines| && IndentLen(lines[k]) == 0
    ensures MinIndent(lines) == Some(0)
  {
    var z := MinIndent(lines);
    assert z.value <= IndentLen(lines[k]);
  }

  /** The output of `minimize_indent` survives both filters unchanged. */
  lemma OutputSurvives(source: string)
    requires |Survivors(source)| > 0
    ensures Survivors(MinimizeIndent(source)) == CutLines(source)
  {
    var cut := CutLines(source);
    SomeLineAtColumnZero(source);
    CutLinesNotBlankOrComment(source);
    FilterAllPass(cut, NotBlank);
    FilterAllPass(cut, NotComment);
  }

  /** The empty text has no surviving line. */
  lemma EmptyHasNoSurvivors()
    ensures Survivors("") == []
  {
    assert Split("", '\n') == [""];
    assert Strip("") == "";
    assert Filter([""], NotBlank) == [];
  }

  /** Cutting zero columns from every line leaves the lines as they are. */
  lemma CutZero(source: string)
    ensures MinIndent(Survivors(source)) == Some(0) ==> CutLines(source) == Survivors(source)
  {
    var lines := Survivors(source);
    assert forall k :: 0 <= k < |lines| ==> lines[k][0..] == lines[k];
  }

  /** Applying `minimize_indent` twice gives the same text as once. */
  lemma {:induction false} MinimizeIdempotent(source: string)
    ensures MinimizeIndent(MinimizeIndent(source)) == MinimizeIndent(source)
  {
    var out := MinimizeIndent(source);
    if |Survivors(source)| == 0 {
      EmptyHasNoSurvivors();
    } else {
      var cut := CutLines(source);
      OutputSurvives(source);
      SomeLineAtColumnZero(source);
      var k :| 0 <= k < |cut| && IndentLen(cut[k]) == 0;
      MinIndentZero(cut, k);
      CutZero(out);
    }
  }
}

=== FILE: console.dfy ===
/** One turn of `XPY.run`'s read-eval loop, as `compile_and_exec` drives
    it: take the queued input or read a line, hand it to `compile_source`,
    pollute the scopes and run the unit when it compiled, then record the
    source if recording is on once it has run. Running a unit is opaque:
    `exec` says which recorder calls (`record`, `stop`, `play`) the unit
    makes, in order; what it binds in the scopes is not modelled. */
module Console {
  import opened Text
  import opened Options
  import opened Intake
  import opened Macro
  import opened Pollution

  /** The loop's state: the session's sources and code, the recorder, the
      scopes and whether pollution is on. */
  datatype Console<V> = Console(session: Session, recorder: Recorder, scopes: Scopes<V>, polluted: bool)

  /** What one turn did: the next state, the source it submitted (none when
      reading was interrupted), what intake made of it, and the pollution
      warnings printed. */
  datatype Turn<V> = Turn(next: Console<V>, source: Option<string>, intake: Option<Intake>, warnings: seq<Warning>)

  /** Whether intake produced a unit that is run. */
  predicate Runs(i: Intake)
  {
    i.Compiled? || i.Reused?
  }

  /** One loop turn. `read` is what the terminal gave (`None` for an
      interrupted read); it is only consulted when the queue is empty. */
  function Step<V(==)>(c: Console<V>, read: Option<string>, compiles: Unit -> bool,
                       helpers: seq<(string, V)>, self: V, exec: Unit -> seq<Command>): (t: Turn<V>)
    requires ValidScopes(c.scopes)
    ensures ValidScopes(t.next.scopes) && t.next.polluted == c.polluted
    ensures |c.recorder.queue| > 0 ==> t.source == Some(Join(c.recorder.queue, '\n'))
    ensures |c.recorder.queue| == 0 ==> t.source == read
    ensures t.source.None? ==> t == Turn(c, None, None, [])
    ensures t.source.Some? ==> t.intake.Some?
    ensures |c.session.sources| <= |t.next.session.sources| <= |c.session.sources| + 1
    ensures t.next.session.sources[..|c.session.sources|] == c.session.sources
    ensures t.intake.Some? && !Runs(t.intake.value) ==>
      t.next.scopes == c.scopes && t.warnings == []
    ensures t.source.Some? && t.next.recorder.recording ==>
      |t.next.recorder.macro| > 0 && t.next.recorder.macro[|t.next.recorder.macro| - 1] == t.source.value
    // The submitted source goes through `compile_source`.
    ensures t.source.Some? ==>
      (t.next.session, t.intake.value) == CompileSource(c.session, t.source.value, compiles)
    // A unit that runs is preceded by `pollute` as written, when pollution is on.
    ensures t.intake.Some? && Runs(t.intake.value) && c.polluted ==>
      (t.next.scopes, t.warnings) == Pollute(c.scopes, helpers, self)
    ensures !c.polluted ==> t.next.scopes == c.scopes && t.warnings == []
    // The recorder: the queue is taken, the unit's calls act on it, and the
    // source joins the macro exactly when recording is on after the run.
    ensures t.source.Some? ==>
      var ran := ApplyAll(c.recorder.(queue := []), if Runs(t.intake.value) then exec(t.intake.value.unit) else []);
      t.next.recorder.recording == ran.recording && t.next.recorder.queue == ran.queue
      && (ran.recording ==> t.next.recorder.macro == ran.macro + [t.source.value])
      && (!ran.recording ==> t.next.recorder.macro == ran.macro)
  {
    var drained := Drain(c.recorder);
    var source := if drained.1.Some? then drained.1 else read;
    if source.None? then Turn(c, None, None, [])
    else
      var compiled := CompileSource(c.session, source.value, compiles);
      var intake := compiled.1;
      var polluted := if Runs(intake) && c.polluted then Pollute(c.scopes, helpers, self) else (c.scopes, []);
      var calls := if Runs(intake) then exec(intake.unit) else [];
      var recorder := AfterRun(ApplyAll(drained.0, calls), source.value);
      Turn(Console(compiled.0, recorder, polluted.0, c.polluted), source, Some(intake), polluted.1)
  }

  /** A unit that makes no recorder call leaves the queue empty: the whole
      queue was consumed as one source. */
  lemma QueueConsumed<V>(c: Console<V>, read: Option<string>, compiles: Unit -> bool,
                         helpers: seq<(string, V)>, self: V, exec: Unit -> seq<Command>)
    requires ValidScopes(c.scopes) && |c.recorder.queue| > 0
    requires forall u :: exec(u) == []
    ensures var t := Step(c, read, compiles, helpers, self, exec);
            t.next.recorder.queue == [] && t.source == Some(Join(c.recorder.queue, '\n'))
            && t.next.recorder.recording == c.recorder.recording
  {
  }

  /** A source whose compile failed is still recorded when recording is on,
      and nothing is polluted. */
  lemma FailedSourceRecorded<V>(c: Console<V>, line: string, compiles: Unit -> bool,
                                helpers: seq<(string, V)>, self: V, exec: Unit -> seq<Command>)
    requires ValidScopes(c.scopes) && |c.recorder.queue| == 0 && c.recorder.recording
    requires RStrip(line) != "." && RStrip(line) != ""
    requires !compiles(Unit(RStrip(line), ModeFor(RStrip(line))))
    ensures var t := Step(c, Some(line), compiles, helpers, self, exec);
            t.intake == Some(SyntaxFailed(Unit(RStrip(line), ModeFor(RStrip(line)))))
            && t.next.recorder.macro == c.recorder.macro + [line]
            && t.next.scopes == c.scopes
  {
    FreshInput(c.session, line, compiles);
  }

  /** A turn whose unit calls `play`, with nothing queued, stops any live
      recording (dropping the line that started it), queues the kept macro
      and changes nothing else in the recorder. */
  lemma PlayQueuesMacro<V>(c: Console<V>, read: Option<string>, compiles: Unit -> bool,
                           helpers: seq<(string, V)>, self: V, exec: Unit -> seq<Command>)
    requires ValidScopes(c.scopes) && |c.recorder.queue| == 0
    requires read.Some? && Runs(CompileSource(c.session, read.value, compiles).1)
    requires exec(CompileSource(c.session, read.value, compiles).1.unit) == [PlayCmd]
    ensures Step(c, read, compiles, helpers, self, exec).next.recorder
            == Recorder(false, Stop(c.recorder).macro, Stop(c.recorder).macro)
  {
    var r0 := c.recorder.(queue := []);
    assert Drain(c.recorder).0 == r0;
    assert ApplyAll(r0, [PlayCmd]) == ApplyAll(Play(r0), []);
    assert Play(r0) == Recorder(false, Stop(c.recorder).macro, Stop(c.recorder).macro);
  }

  /** The turn after such a `play` runs the macro as one source, whatever
      the terminal would have given, and its lines are the macro's entries
      when none spans several lines. */
  lemma PlayRunsNextTurn<V>(c: Console<V>, read: Option<string>, later: Option<string>, compiles: Unit -> bool,
                            helpers: seq<(string, V)>, self: V, exec: Unit -> seq<Command>)
    requires ValidScopes(c.scopes) && |c.recorder.queue| == 0
    requires var m := Stop(c.recorder).macro; |m| > 0 && forall i :: 0 <= i < |m| ==> '\n' !in m[i]
    requires read.Some? && Runs(CompileSource(c.session, read.value, compiles).1)
    requires exec(CompileSource(c.session, read.value, compiles).1.unit) == [PlayCmd]
    ensures var t := Step(c, read, compiles, helpers, self, exec);
            var t2 := Step(t.next, later, compiles, helpers, self, exec);
            t2.source.Some? && Split(t2.source.value, '\n') == Stop(c.recorder).macro
  {
    var m := Stop(c.recorder).macro;
    var t := Step(c, read, compiles, helpers, self, exec);
    PlayQueuesMacro(c, read, compiles, helpers, self, exec);
    var t2 := Step(t.next, later, compiles, helpers, self, exec);
    assert t2.source == Some(Join(m, '\n'));
    SplitJoin(m, '\n');
  }
}

=== FILE: history.dfy ===
/** `History.get_last`: the most recent entries of the readline history.
    The history itself is an accessor `item` over indices together with the
    current length; which entry an index names (GNU readline numbers them
    from one) is left to the accessor. */
module History {

  /** The index window `range(max(length - count, 0), length)`, collected
      through `item` in increasing index order. */
  method GetLast(length: nat, item: nat -> string, count: int) returns (lines: seq<string>)
    ensures |lines| == if count <= 0 then 0 else if count < length then count else length
    ensures forall j :: 0 <= j < |lines| ==> lines[j] == item(length - |lines| + j)
  {
    var start := if length - count > 0 then length - count else 0;
    lines := [];
    var i := start;
    while i < length
      invariant start <= i <= length || (start >= length && i == start)
      invariant |lines| == i - start
      invariant forall j :: 0 <= j < |lines| ==> lines[j] == item(start + j)
    {
      lines := lines + [item(i)];
      i := i + 1;
    }
  }
}

=== FILE: intake.dfy ===
/** `XPY.compile_source`: turning one submitted text into the unit that is
    run next. The session keeps the append-only list of submitted source
    texts and the last compiled unit. Compilation itself is opaque: the
    caller supplies `compiles`, which says whether a text compiles in a
    mode. */
module Intake {
  import opened Text
  import opened Options

  /** The `mode` argument passed to `compile`. */
  datatype Mode = Exec | Single

  /** A compiled unit, known by the text and mode it was compiled from. */
  datatype Unit = Unit(text: string, mode: Mode)

  /** The session's `source` list and `execution.code`. */
  datatype Session = Session(sources: seq<string>, code: Option<Unit>)

  /** What one intake step produced. */
  datatype Intake =
    | Reused(unit: Unit)          // `.` re-runs the existing code
    | Compiled(unit: Unit)        // a new unit was compiled
    | SyntaxFailed(unit: Unit)    // `compile` raised; nothing runs
    | RepeatFailed                // `.` with sources but no code: the assertion fails

  /** The text that stands in for a blank input or a `.` with nothing to repeat. */
  const NoneText: string := "None"

  /** Compile mode: a block when the text spans several lines, else a single
      interactive statement. */
  function ModeFor(text: string): (m: Mode)
    ensures m == Exec <==> exists i :: 0 <= i < |text| && text[i] == '\n'
  {
    if '\n' in text then Exec else Single
  }

  /** The last compiled unit is the last submitted text, compiled in the
      mode its text calls for. */
  predicate CodeMatchesLast(s: Session)
  {
    s.code.Some? ==>
      |s.sources| > 0 && s.code.value.text == s.sources[|s.sources| - 1]
      && s.code.value.mode == ModeFor(s.code.value.text)
  }

  /** Append `text` to the sources and compile it. */
  function Submit(s: Session, text: string, compiles: Unit -> bool): (r: (Session, Intake))
    ensures r.0.sources == s.sources + [text]
    ensures r.1.Compiled? || r.1.SyntaxFailed?
    ensures r.1.unit == Unit(text, ModeFor(text))
    ensures r.0.code.Some? <==> r.1.Compiled?
    ensures r.1.Compiled? ==> r.0.code == Some(r.1.unit)
  {
    var u := Unit(text, ModeFor(text));
    var sources := s.sources + [text];
    if compiles(u) then (Session(sources, Some(u)), Compiled(u))
    else (Session(sources, None), SyntaxFailed(u))
  }

  /** `compile_source` for the raw submitted `input`. */
  function CompileSource(s: Session, input: string, compiles: Unit -> bool): (r: (Session, Intake))
    ensures |s.sources| <= |r.0.sources| <= |s.sources| + 1
    ensures r.0.sources[..|s.sources|] == s.sources
    ensures r.1.Compiled? || r.1.SyntaxFailed? ==>
      r.0.sources == s.sources + [r.1.unit.text] && r.1.unit.mode == ModeFor(r.1.unit.text)
    ensures r.1.Reused? || r.1.RepeatFailed? ==> r.0 == s
  {
    var text := RStrip(input);
    if text == "." then
      if |s.sources| > 0 then
        if s.code.Some? then (s, Reused(s.code.value)) else (s, RepeatFailed)
      else Submit(s.(code := None), NoneText, compiles)
    else
      Submit(s.(code := None), if text == "" then NoneText else text, compiles)
  }

  /** A `.` with submitted sources repeats the existing code: nothing is
      appended and nothing is compiled. */
  lemma DotRepeats(s: Session, input: string, compiles: Unit -> bool)
    requires RStrip(input) == "." && |s.sources| > 0
    ensures CompileSource(s, input, compiles).0 == s
    ensures s.code.Some? ==> CompileSource(s, input, compiles).1 == Reused(s.code.value)
    ensures s.code.None? ==> CompileSource(s, input, compiles).1 == RepeatFailed
  {
  }

  /** A `.` with no sources, or a blank input, compiles the literal `None`
      as a single statement. */
  lemma NoneSubstituted(s: Session, input: string, compiles: Unit -> bool)
    requires (RStrip(input) == "." && |s.sources| == 0) || RStrip(input) == ""
    ensures CompileSource(s, input, compiles).0.sources == s.sources + [NoneText]
    ensures CompileSource(s, input, compiles).1.unit == Unit(NoneText, Single)
  {
  }

  /** Any other input drops the old code and appends exactly its stripped text. */
  lemma FreshInput(s: Session, input: string, compiles: Unit -> bool)
    requires RStrip(input) != "." && RStrip(input) != ""
    ensures CompileSource(s, input, compiles).0.sources == s.sources + [RStrip(input)]
    ensures CompileSource(s, input, compiles).1.unit.text == RStrip(input)
    ensures CompileSource(s, input, compiles).0.code.Some? <==> compiles(Unit(RStrip(input), ModeFor(RStrip(input))))
  {
  }

  /** The code held by the session always belongs to the last source text. */
  lemma CodeMatchesLastPreserved(s: Session, input: string, compiles: Unit -> bool)
    requires CodeMatchesLast(s)
    ensures CodeMatchesLast(CompileSource(s, input, compiles).0)
  {
  }
}

=== FILE: macro.dfy ===
/** The macro recorder (`XPY.record`, `stop`, `play`) and the input queue
    the loop drains. The recorder is the triple `is_recording`, `macro`,
    `input`. */
module Macro {
  import opened Text
  import opened Options

  datatype Recorder = Recorder(recording: bool, macro: seq<string>, queue: seq<string>)

  /** `record`: start a fresh macro unless one is being recorded. */
  function Record(r: Recorder): (r': Recorder)
    ensures r'.recording && r'.queue == r.queue
    ensures !r.recording ==> r'.macro == []
    ensures r.recording ==> r' == r
  {
    if !r.recording then r.(macro := [], recording := true) else r
  }

  /** `stop`: end recording and drop the first buffered entry, which is the
      line that called `record`. */
  function Stop(r: Recorder): (r': Recorder)
    ensures !r'.recording && r'.queue == r.queue
    ensures r.recording && |r.macro| > 0 ==> [r.macro[0]] + r'.macro == r.macro
    ensures r.recording && |r.macro| == 0 ==> r'.macro == []
    ensures !r.recording ==> r' == r
  {
    if r.recording then r.(recording := false, macro := if |r.macro| > 0 then r.macro[1..] else [])
    else r
  }

  /** `play`: stop, then append the macro to the end of the input queue;
      the macro itself is kept. */
  function Play(r: Recorder): (r': Recorder)
    ensures !r'.recording
    ensures r'.macro == Stop(r).macro
    ensures r'.queue == r.queue + r'.macro
  {
    var s := Stop(r);
    s.(queue := s.queue + s.macro)
  }

  /** The loop's intake from the queue: when it is non-empty, all of it is
      taken as one line-joined source and the queue is emptied. */
  function Drain(r: Recorder): (out: (Recorder, Option<string>))
    ensures |r.queue| == 0 <==> out.1.None?
    ensures out.0 == r.(queue := [])
    ensures out.1.Some? ==> out.1.value == Join(r.queue, '\n')
  {
    if |r.queue| > 0 then (r.(queue := []), Some(Join(r.queue, '\n'))) else (r, None)
  }

  /** The drained source splits back into the queued entries when none of
      them spans several lines. */
  lemma DrainSplitsBack(r: Recorder)
    requires |r.queue| > 0
    requires forall i :: 0 <= i < |r.queue| ==> '\n' !in r.queue[i]
    ensures Split(Drain(r).1.value, '\n') == r.queue
  {
    SplitJoin(r.queue, '\n');
  }

  /** After a submitted source has run, it joins the macro if recording is
      on at that point. */
  function AfterRun(r: Recorder, source: string): (r': Recorder)
    ensures r'.recording == r.recording && r'.queue == r.queue
    ensures r.recording ==> r'.macro == r.macro + [source]
    ensures !r.recording ==> r'.macro == r.macro
  {
    if r.recording then r.(macro := r.macro + [source]) else r
  }

  /** The recorder calls a run unit makes. */
  datatype Command = RecordCmd | StopCmd | PlayCmd

  function Apply(r: Recorder, c: Command): Recorder
  {
    match c
    case RecordCmd => Record(r)
    case StopCmd => Stop(r)
    case PlayCmd => Play(r)
  }

  /** The calls of one run, in order. */
  function ApplyAll(r: Recorder, cs: seq<Command>): Recorder
    decreases |cs|
  {
    if |cs| == 0 then r else ApplyAll(Apply(r, cs[0]), cs[1..])
  }

  /** Lines that touch no recorder call, each recorded after it ran. */
  function Feed(r: Recorder, lines: seq<string>): Recorder
    decreases |lines|
  {
    if |lines| == 0 then r else Feed(AfterRun(r, lines[0]), lines[1..])
  }

  /** Feeding lines while recording appends exactly those lines. */
  lemma {:induction false} FeedAppends(r: Recorder, lines: seq<string>)
    ensures Feed(r, lines).recording == r.recording && Feed(r, lines).queue == r.queue
    ensures r.recording ==> Feed(r, lines).macro == r.macro + lines
    ensures !r.recording ==> Feed(r, lines) == r
    decreases |lines|
  {
    if |lines| > 0 {
      FeedAppends(AfterRun(r, lines[0]), lines[1..]);
      if r.recording {
        assert r.macro + [lines[0]] + lines[1..] == r.macro + lines;
      }
    }
  }

  /** Recording from line `k`, submitting `lines`, then stopping leaves
      exactly `lines` in the macro: the line `k` that called `record` is
      recorded after it ran and then dropped by `stop`, and the line that
      called `stop` is not recorded because recording is off once it ran. */
  lemma MacroCaptures(r: Recorder, k: string, lines: seq<string>, stopLine: string)
    requires !r.recording
    ensures var started := AfterRun(Record(r), k);
            var stopped := AfterRun(Stop(Feed(started, lines)), stopLine);
            stopped.macro == lines && !stopped.recording && stopped.queue == r.queue
  {
    var started := AfterRun(Record(r), k);
    assert started.macro == [k];
    FeedAppends(started, lines);
    assert Feed(started, lines).macro == [k] + lines;
    assert ([k] + lines)[1..] == lines;
  }

  /** Playing then draining runs the kept macro as one source whose lines
      are the macro's entries, when the queue held nothing and no entry
      spans several lines. */
  lemma {:induction false} PlayThenDrain(r: Recorder)
    requires |r.queue| == 0 && |Stop(r).macro| > 0
    requires forall i :: 0 <= i < |Stop(r).macro| ==> '\n' !in Stop(r).macro[i]
    ensures Drain(Play(r)).1.Some?
    ensures Split(Drain(Play(r)).1.value, '\n') == Stop(r).macro
    ensures Drain(Play(r)).0 == Recorder(false, Stop(r).macro, [])
  {
    assert Play(r).queue == Stop(r).macro;
    DrainSplitsBack(Play(r));
  }

  /** `stop` and `record` each do nothing the second time. */
  lemma StopRecordIdempotent(r: Recorder)
    ensures Stop(Stop(r)) == Stop(r)
    ensures Record(Record(r)) == Record(r)
  {
  }
}

=== FILE: options.dfy ===
/** Python's `None`-or-value, shared by every module of the model. */
module Options {

  datatype Option<T> = None | Some(value: T)
}

=== FILE: pollution.dfy ===
/** `XPY.pollute`: helper bindings merged into the outer scope, and the
    running session bound in the inner scope under `xpy`, with advisory
    warnings when an existing binding is shadowed. Python's `is not` on the
    bound objects is modelled as inequality of the abstract values `V`. */
module Pollution {
  import opened Seqs

  datatype Warning = ShadowsGlobal(name: string) | ShadowsLocal(name: string)

  /** The scope pair `g`, `l`; `aliased` when `l` is the very mapping `g`
      (the caller passed no inner scope). */
  datatype Scopes<V> = Scopes(g: map<string, V>, l: map<string, V>, aliased: bool)

  /** An aliased pair is one mapping seen twice. */
  ghost predicate ValidScopes<V>(sc: Scopes<V>)
  {
    sc.aliased ==> sc.g == sc.l
  }

  /** The reserved inner-scope name of the running session. */
  const SessionName: string := "xpy"

  /** A helper is injected unless its name starts with `_`. */
  predicate IsPublic<V>(entry: (string, V))
  {
    !(|entry.0| > 0 && entry.0[0] == '_')
  }

  /** The `pollution` mapping: the public entries of the helper namespace,
      in its order. */
  function PollutionOf<V>(helpers: seq<(string, V)>): seq<(string, V)>
  {
    Filter(helpers, IsPublic)
  }

  /** The names bound by `entries`. */
  function KeySet<V>(entries: seq<(string, V)>): (r: set<string>)
    ensures forall i :: 0 <= i < |entries| ==> entries[i].0 in r
    ensures forall k :: k in r ==> exists i :: 0 <= i < |entries| && entries[i].0 == k
    decreases |entries|
  {
    if |entries| == 0 then {}
    else
      var rest := KeySet(entries[1..]);
      assert forall k :: k in rest ==> exists i :: 1 <= i < |entries| && entries[i].0 == k by {
        forall k | k in rest ensures exists i :: 1 <= i < |entries| && entries[i].0 == k {
          var i :| 0 <= i < |entries[1..]| && entries[1..][i].0 == k;
          assert entries[i + 1].0 == k;
        }
      }
      {entries[0].0} + rest
  }

  /** No name is bound twice, as in the items of a Python dict. */
  predicate DistinctKeys<V>(entries: seq<(string, V)>)
    decreases |entries|
  {
    |entries| == 0 || (entries[0].0 !in KeySet(entries[1..]) && DistinctKeys(entries[1..]))
  }

  /** Filtering keeps the names distinct. */
  lemma {:induction false} FilterKeepsDistinct<V>(entries: seq<(string, V)>, p: ((string, V)) -> bool)
    requires DistinctKeys(entries)
    ensures DistinctKeys(Filter(entries, p))
    ensures KeySet(Filter(entries, p)) <= KeySet(entries)
    decreases |entries|
  {
    if |entries| > 0 {
      FilterKeepsDistinct(entries[1..], p);
      var r := Filter(entries, p);
      if p(entries[0]) {
        assert r[1..] == Filter(entries[1..], p);
      }
    }
  }

  /** `g.update(entries)`. */
  function UpdateAll<V>(g: map<string, V>, entries: seq<(string, V)>): (r: map<string, V>)
    ensures r.Keys == g.Keys + KeySet(entries)
    ensures forall k :: k in g && k !in KeySet(entries) ==> r[k] == g[k]
    ensures DistinctKeys(entries) ==> forall i :: 0 <= i < |entries| ==> r[entries[i].0] == entries[i].1
    decreases |entries|
  {
    if |entries| == 0 then g
    else
      var r := UpdateAll(g[entries[0].0 := entries[0].1], entries[1..]);
      assert forall i :: 1 <= i < |entries| ==> entries[i] == entries[1..][i - 1];
      r
  }

  /** Updating with bindings the mapping already holds changes nothing. */
  lemma {:induction false} UpdateAllHeld<V>(g: map<string, V>, entries: seq<(string, V)>)
    requires forall i :: 0 <= i < |entries| ==> entries[i].0 in g && g[entries[i].0] == entries[i].1
    ensures UpdateAll(g, entries) == g
    decreases |entries|
  {
    if |entries| > 0 {
      assert g[entries[0].0 := entries[0].1] == g;
      UpdateAllHeld(g, entries[1..]);
    }
  }

  /** The warning the check of `entry` against `g` prints, if any. */
  function ShadowCheck<V(==)>(g: map<string, V>, entry: (string, V)): seq<Warning>
  {
    if entry.0 in g && g[entry.0] != entry.1 then [ShadowsGlobal(entry.0)] else []
  }

  /** The loop over the pollution items from position `i`: each item is
      checked against `g`, then `g.update(pollution)` runs inside the loop
      body. */
  function GlobalLoop<V(==)>(g: map<string, V>, p: seq<(string, V)>, i: nat): (r: (map<string, V>, seq<Warning>))
    ensures i < |p| ==> r.0.Keys == g.Keys + KeySet(p)
    ensures i >= |p| ==> r == (g, [])
    ensures |r.1| <= if i < |p| then |p| - i else 0
    ensures forall w :: w in r.1 ==> w.ShadowsGlobal?
    decreases |p| - i
  {
    if i >= |p| then (g, [])
    else
      var rest := GlobalLoop(UpdateAll(g, p), p, i + 1);
      (rest.0, ShadowCheck(g, p[i]) + rest.1)
  }

  /** Once `g` already holds every pollution binding, the rest of the loop
      neither changes it nor warns. */
  lemma {:induction false} GlobalLoopSettled<V>(u: map<string, V>, p: seq<(string, V)>, i: nat)
    requires forall j :: 0 <= j < |p| ==> p[j].0 in u && u[p[j].0] == p[j].1
    ensures GlobalLoop(u, p, i) == (u, [])
    decreases |p| - i
  {
    if i < |p| {
      UpdateAllHeld(u, p);
      GlobalLoopSettled(u, p, i + 1);
      assert ShadowCheck(u, p[i]) == [];
      assert GlobalLoop(u, p, i) == (GlobalLoop(u, p, i + 1).0, ShadowCheck(u, p[i]) + GlobalLoop(u, p, i + 1).1);
      assert GlobalLoop(u, p, i).0 == u;
      assert GlobalLoop(u, p, i).1 == [];
    }
  }

  /** As written, the loop leaves `g` updated with every binding and can
      warn only about the first pollution name. */
  lemma GlobalLoopOutcome<V>(g: map<string, V>, p: seq<(string, V)>)
    requires DistinctKeys(p)
    ensures |p| == 0 ==> GlobalLoop(g, p, 0) == (g, [])
    ensures |p| > 0 ==> GlobalLoop(g, p, 0) == (UpdateAll(g, p), ShadowCheck(g, p[0]))
  {
    if |p| > 0 {
      var u := UpdateAll(g, p);
      GlobalLoopSettled(u, p, 1);
      assert GlobalLoop(g, p, 0) == (GlobalLoop(u, p, 1).0, ShadowCheck(g, p[0]) + GlobalLoop(u, p, 1).1);
      assert GlobalLoop(g, p, 0).0 == u;
      assert GlobalLoop(g, p, 0).1 == ShadowCheck(g, p[0]) + [];
      assert ShadowCheck(g, p[0]) + [] == ShadowCheck(g, p[0]);
    }
  }

  /** `pollute(g, l)` with the helper namespace `helpers` and the session
      object `self`: the scopes afterwards and the warnings printed. */
  function Pollute<V(==)>(sc: Scopes<V>, helpers: seq<(string, V)>, self: V): (r: (Scopes<V>, seq<Warning>))
    requires ValidScopes(sc)
    ensures ValidScopes(r.0) && r.0.aliased == sc.aliased
    ensures SessionName in r.0.l && r.0.l[SessionName] == self
    ensures DistinctKeys(helpers) ==>
      forall i :: 0 <= i < |helpers| && IsPublic(helpers[i]) && (!sc.aliased || helpers[i].0 != SessionName) ==>
        helpers[i].0 in r.0.g && r.0.g[helpers[i].0] == helpers[i].1
    ensures forall w :: w in r.1 ==> w == ShadowsLocal(SessionName) || w.ShadowsGlobal?
  {
    var p := PollutionOf(helpers);
    var loop := GlobalLoop(sc.g, p, 0);
    var g1 := loop.0;
    var w1 := loop.1;
    var l1 := if sc.aliased then g1 else sc.l;
    var w2 := if SessionName in l1 && l1[SessionName] != self then [ShadowsLocal(SessionName)] else [];
    var l2 := l1[SessionName := self];
    var g2 := if sc.aliased then l2 else g1;
    PolluteGlobals(sc.g, helpers);
    (Scopes(g2, l2, sc.aliased), w1 + w2)
  }

  /** After the global loop every public helper is bound to its value. */
  lemma PolluteGlobals<V>(g: map<string, V>, helpers: seq<(string, V)>)
    ensures DistinctKeys(helpers) ==>
      forall i :: 0 <= i < |helpers| && IsPublic(helpers[i]) ==>
        helpers[i].0 in GlobalLoop(g, PollutionOf(helpers), 0).0
        && GlobalLoop(g, PollutionOf(helpers), 0).0[helpers[i].0] == helpers[i].1
  {
    if DistinctKeys(helpers) {
      var p := PollutionOf(helpers);
      FilterKeepsDistinct(helpers, IsPublic);
      FilterKeepsOrder(helpers, IsPublic);
      GlobalLoopOutcome(g, p);
      forall i | 0 <= i < |helpers| && IsPublic(helpers[i])
        ensures helpers[i].0 in GlobalLoop(g, p, 0).0 && GlobalLoop(g, p, 0).0[helpers[i].0] == helpers[i].1
      {
        assert helpers[i] in p;
        var j :| 0 <= j < |p| && p[j] == helpers[i];
      }
    }
  }

  /** As written, with `g.update(pollution)` inside the loop, only the first
      pollution name can draw a global warning; the local check then sees
      the inner scope as it is after the update. */
  lemma PolluteWarningsAsWritten<V>(sc: Scopes<V>, helpers: seq<(string, V)>, self: V)
    requires ValidScopes(sc) && DistinctKeys(helpers)
    ensures var p := PollutionOf(helpers);
            var g1 := if |p| == 0 then sc.g else UpdateAll(sc.g, p);
            var l1 := if sc.aliased then g1 else sc.l;
            Pollute(sc, helpers, self).1 ==
              (if |p| == 0 then [] else ShadowCheck(sc.g, p[0]))
              + (if SessionName in l1 && l1[SessionName] != self then [ShadowsLocal(SessionName)] else [])
  {
    FilterKeepsDistinct(helpers, IsPublic);
    GlobalLoopOutcome(sc.g, PollutionOf(helpers));
  }

  /** Bindings of names that are neither public helpers nor the session
      name are left as they were, in both scopes. */
  lemma PolluteKeepsOthers<V>(sc: Scopes<V>, helpers: seq<(string, V)>, self: V)
    requires ValidScopes(sc) && DistinctKeys(helpers)
    ensures var r := Pollute(sc, helpers, self).0;
            forall k :: k != SessionName && k !in KeySet(PollutionOf(helpers)) ==>
              (k in r.g <==> k in sc.g) && (k in sc.g ==> r.g[k] == sc.g[k])
              && (k in r.l <==> k in sc.l) && (k in sc.l ==> r.l[k] == sc.l[k])
  {
    FilterKeepsDistinct(helpers, IsPublic);
    GlobalLoopOutcome(sc.g, PollutionOf(helpers));
  }

  /** Scopes that already hold every public helper and the session are a
      fixed point of `pollute`, and nothing is printed. */
  lemma PolluteSettled<V>(sc: Scopes<V>, helpers: seq<(string, V)>, self: V)
    requires ValidScopes(sc) && DistinctKeys(helpers)
    requires forall j :: 0 <= j < |PollutionOf(helpers)| ==>
      PollutionOf(helpers)[j].0 in sc.g && sc.g[PollutionOf(helpers)[j].0] == PollutionOf(helpers)[j].1
    requires SessionName in sc.l && sc.l[SessionName] == self
    ensures Pollute(sc, helpers, self) == (sc, [])
  {
    var p := PollutionOf(helpers);
    FilterKeepsDistinct(helpers, IsPublic);
    GlobalLoopOutcome(sc.g, p);
    if |p| > 0 {
      UpdateAllHeld(sc.g, p);
      assert ShadowCheck(sc.g, p[0]) == [];
    }
    assert GlobalLoop(sc.g, p, 0) == (sc.g, []);
    assert sc.l[SessionName := self] == sc.l;
    var r := Pollute(sc, helpers, self);
    assert r.0.l == sc.l;
    assert r.0.g == sc.g;
    assert r.0 == sc;
    assert r.1 == [];
  }

  /** Each pollution entry is a public entry of the helper namespace. */
  lemma PollutionEntry<V>(helpers: seq<(string, V)>, j: nat)
    requires j < |PollutionOf(helpers)|
    ensures PollutionOf(helpers)[j] in helpers && IsPublic(PollutionOf(helpers)[j])
  {
    FilterKeepsOrder(helpers, IsPublic);
    var p := Filter(helpers, IsPublic);
    assert p[j] in p;
  }

  /** After one pollution the outer scope holds every pollution binding. */
  lemma PollutedHoldsHelpers<V>(sc: Scopes<V>, helpers: seq<(string, V)>, self: V, j: nat)
    requires ValidScopes(sc) && DistinctKeys(helpers)
    requires !sc.aliased || SessionName !in KeySet(PollutionOf(helpers))
    requires j < |PollutionOf(helpers)|
    ensures var e := PollutionOf(helpers)[j];
            var once := Pollute(sc, helpers, self).0;
            e.0 in once.g && once.g[e.0] == e.1
  {
    var p := PollutionOf(helpers);
    PollutionEntry(helpers, j);
    var i :| 0 <= i < |helpers| && helpers[i] == p[j];
    assert IsPublic(helpers[i]);
    assert helpers[i].0 in KeySet(p);
  }

  /** Polluting a second time changes neither scope and prints nothing, as
      long as no helper is itself named like the session in a shared scope. */
  lemma PolluteIdempotent<V>(sc: Scopes<V>, helpers: seq<(string, V)>, self: V)
    requires ValidScopes(sc) && DistinctKeys(helpers)
    requires !sc.aliased || SessionName !in KeySet(PollutionOf(helpers))
    ensures var once := Pollute(sc, helpers, self).0;
            Pollute(once, helpers, self) == (once, [])
  {
    var p := PollutionOf(helpers);
    var once := Pollute(sc, helpers, self).0;
    forall j | 0 <= j < |p| ensures p[j].0 in once.g && once.g[p[j].0] == p[j].1 {
      PollutedHoldsHelpers(sc, helpers, self, j);
    }
    PolluteSettled(once, helpers, self);
  }

  /** Item `j` of `p` rebinds the name `k` that `g` binds to another value. */
  predicate ShadowsAt<V(==)>(g: map<string, V>, p: seq<(string, V)>, j: int, k: string)
  {
    0 <= j < |p| && p[j].0 == k && k in g && g[k] != p[j].1
  }

  /** The checks of items `i..` of `p`, all against the scope as it was
      before any update. */
  function CheckAll<V(==)>(g: map<string, V>, p: seq<(string, V)>, i: nat): (r: seq<Warning>)
    ensures forall w :: w in r ==> w.ShadowsGlobal?
    ensures forall k :: ShadowsGlobal(k) in r <==> exists j :: i <= j && ShadowsAt(g, p, j, k)
    decreases |p| - i
  {
    if i >= |p| then []
    else
      var rest := CheckAll(g, p, i + 1);
      var here := ShadowCheck(g, p[i]);
      forall k
        ensures ShadowsGlobal(k) in here + rest <==> exists j :: i <= j && ShadowsAt(g, p, j, k)
      {
        assert ShadowsGlobal(k) in here <==> ShadowsAt(g, p, i, k);
        if exists j :: i <= j && ShadowsAt(g, p, j, k) {
          var j :| i <= j && ShadowsAt(g, p, j, k);
          if j != i {
            assert i + 1 <= j;
          }
        }
        if ShadowsGlobal(k) in rest {
          var j :| i + 1 <= j && ShadowsAt(g, p, j, k);
          assert i <= j;
        }
      }
      ShadowCheck(g, p[i]) + rest
  }

  /** `pollute` as evidently intended: every pollution name is checked
      against the outer scope before `g.update(pollution)` runs once. The
      scopes come out as in `Pollute`; the warnings name every shadowed
      global. */
  function PolluteChecked<V(==)>(sc: Scopes<V>, helpers: seq<(string, V)>, self: V): (r: (Scopes<V>, seq<Warning>))
    requires ValidScopes(sc)
    ensures ValidScopes(r.0) && r.0.aliased == sc.aliased
    ensures SessionName in r.0.l && r.0.l[SessionName] == self
    ensures forall k :: ShadowsGlobal(k) in r.1 <==>
      exists j :: 0 <= j && ShadowsAt(sc.g, PollutionOf(helpers), j, k)
    ensures forall w :: w in r.1 ==> w == ShadowsLocal(SessionName) || w.ShadowsGlobal?
  {
    var p := PollutionOf(helpers);
    var g1 := if |p| == 0 then sc.g else UpdateAll(sc.g, p);
    var l1 := if sc.aliased then g1 else sc.l;
    var w2 := if SessionName in l1 && l1[SessionName] != self then [ShadowsLocal(SessionName)] else [];
    var l2 := l1[SessionName := self];
    var g2 := if sc.aliased then l2 else g1;
    (Scopes(g2, l2, sc.aliased), CheckAll(sc.g, p, 0) + w2)
  }

  /** The corrected `pollute` leaves the scopes exactly as the one as
      written does, and prints its warnings plus possibly more. */
  lemma PolluteCheckedAgrees<V>(sc: Scopes<V>, helpers: seq<(string, V)>, self: V)
    requires ValidScopes(sc) && DistinctKeys(helpers)
    ensures PolluteChecked(sc, helpers, self).0 == Pollute(sc, helpers, self).0
    ensures forall w :: w in Pollute(sc, helpers, self).1 ==> w in PolluteChecked(sc, helpers, self).1
  {
    var p := PollutionOf(helpers);
    FilterKeepsDistinct(helpers, IsPublic);
    GlobalLoopOutcome(sc.g, p);
    PolluteWarningsAsWritten(sc, helpers, self);
    if |p| > 0 {
      assert CheckAll(sc.g, p, 0) == ShadowCheck(sc.g, p[0]) + CheckAll(sc.g, p, 1);
    }
  }

  /** Two helpers that both rebind a global: as written only the first is
      reported, while the corrected check reports both. */
  lemma OnlyFirstShadowReported()
    ensures var sc := Scopes(map["a" := 0, "b" := 0], map[], false);
            var helpers := [("a", 1), ("b", 1)];
            Pollute(sc, helpers, 2).1 == [ShadowsGlobal("a")]
            && ShadowsGlobal("b") in PolluteChecked(sc, helpers, 2).1
  {
    var sc := Scopes(map["a" := 0, "b" := 0], map[], false);
    var helpers: seq<(string, int)> := [("a", 1), ("b", 1)];
    assert IsPublic(helpers[0]) && IsPublic(helpers[1]);
    FilterAllPass(helpers, IsPublic);
    assert PollutionOf(helpers) == helpers;
    assert KeySet(helpers[1..]) == {"b"};
    assert DistinctKeys(helpers);
    PolluteWarningsAsWritten(sc, helpers, 2);
    assert ShadowsAt(sc.g, helpers, 1, "b");
  }
}

=== FILE: seqs.dfy ===
/** Python's `filter` over lists, and the order and counts it keeps. */
module Seqs {

  /** `list(filter(p, s))`. */
  function Filter<T>(s: seq<T>, p: T -> bool): (r: seq<T>)
    ensures |r| <= |s|
    ensures forall k :: 0 <= k < |r| ==> p(r[k])
    decreases |s|
  {
    if |s| == 0 then []
    else if p(s[0]) then [s[0]] + Filter(s[1..], p)
    else Filter(s[1..], p)
  }

  /** `a` is `b` with some elements left out and the rest in their order. */
  ghost predicate IsSubsequence<T>(a: seq<T>, b: seq<T>)
    decreases |b|
  {
    if |a| == 0 then true
    else if |b| == 0 then false
    else (a[0] == b[0] && IsSubsequence(a[1..], b[1..])) || IsSubsequence(a, b[1..])
  }

  /** Filtering keeps exactly the elements that pass, in their order. */
  lemma {:induction false} FilterKeepsOrder<T>(s: seq<T>, p: T -> bool)
    ensures IsSubsequence(Filter(s, p), s)
    ensures forall x :: x in Filter(s, p) ==> x in s && p(x)
    ensures forall x :: x in s && p(x) ==> x in Filter(s, p)
    decreases |s|
  {
    if |s| > 0 {
      FilterKeepsOrder(s[1..], p);
      assert s == [s[0]] + s[1..];
      var r := Filter(s, p);
      if p(s[0]) {
        assert r[1..] == Filter(s[1..], p);
      }
    }
  }

  /** Filtering a sequence whose elements all pass changes nothing. */
  lemma {:induction false} FilterAllPass<T>(s: seq<T>, p: T -> bool)
    requires forall k :: 0 <= k < |s| ==> p(s[k])
    ensures Filter(s, p) == s
    decreases |s|
  {
    if |s| > 0 {
      FilterAllPass(s[1..], p);
      assert [s[0]] + s[1..] == s;
    }
  }

  /** Two filters in a row filter by the conjunction. */
  lemma {:induction false} FilterTwice<T>(s: seq<T>, p: T -> bool, q: T -> bool, both: T -> bool)
    requires forall x :: both(x) == (p(x) && q(x))
    ensures Filter(Filter(s, p), q) == Filter(s, both)
    decreases |s|
  {
    if |s| > 0 {
      FilterTwice(s[1..], p, q, both);
      if p(s[0]) {
        assert Filter(s, p)[1..] == Filter(s[1..], p);
      }
    }
  }

  /** Filtering keeps every occurrence of an element that passes and none
      of one that does not. */
  lemma {:induction false} FilterCount<T>(s: seq<T>, p: T -> bool, x: T)
    ensures multiset(Filter(s, p))[x] == if p(x) then multiset(s)[x] else 0
    decreases |s|
  {
    if |s| > 0 {
      FilterCount(s[1..], p, x);
      assert s == [s[0]] + s[1..];
      assert multiset(s) == multiset([s[0]]) + multiset(s[1..]);
      if p(s[0]) {
        assert multiset(Filter(s, p)) == multiset([s[0]]) + multiset(Filter(s[1..], p));
      }
    }
  }
}

=== FILE: text.dfy ===
/** Python `str` behaviour the console relies on: whitespace classes,
    `strip`/`lstrip`/`rstrip`, single-character `split` and `join`, and
    slicing with Python's negative-index and clamping rules. */
module Text {

  /** The characters for which Python's `str.isspace()` holds; these are the
      characters `str.strip()` and `str.rstrip()` remove when called without
      an argument. */
  predicate IsSpace(c: char)
  {
    c == ' ' || ('\t' <= c <= '\r') || ('\U{1c}' <= c <= '\U{1f}')
    || c == '\U{85}' || c == '\U{a0}' || c == '\U{1680}'
    || ('\U{2000}' <= c <= '\U{200a}') || c == '\U{2028}' || c == '\U{2029}'
    || c == '\U{202f}' || c == '\U{205f}' || c == '\U{3000}'
  }

  /** The two characters `lstrip('\t ')` removes. */
  predicate IsBlank(c: char)
  {
    c == ' ' || c == '\t'
  }

  lemma BlankIsSpace(c: char)
    requires IsBlank(c)
    ensures IsSpace(c)
  {
  }

  /** `s.lstrip(chars)` where `p` says which characters are in `chars`. */
  function LStripBy(s: string, p: char -> bool): (r: string)
    ensures |r| <= |s| && r == s[|s| - |r|..]
    ensures forall i :: 0 <= i < |s| - |r| ==> p(s[i])
    ensures r == [] || !p(r[0])
    decreases |s|
  {
    if |s| > 0 && p(s[0]) then LStripBy(s[1..], p) else s
  }

  /** Stripping a prefix made of stripped characters first changes nothing. */
  lemma {:induction false} LStripBySkip(s: string, p: char -> bool, m: nat)
    requires m <= |s|
    requires forall i :: 0 <= i < m ==> p(s[i])
    ensures LStripBy(s[m..], p) == LStripBy(s, p)
    decreases m
  {
    if m > 0 {
      assert s[1..][m - 1..] == s[m..];
      LStripBySkip(s[1..], p, m - 1);
    }
  }

  /** Python `s.lstrip()`. */
  function LStrip(s: string): (r: string)
  {
    LStripBy(s, IsSpace)
  }

  /** Python `s.rstrip()`: the longest prefix of `s` that does not end in
      whitespace, and only whitespace follows it. */
  function RStrip(s: string): (r: string)
    ensures |r| <= |s| && r == s[..|r|]
    ensures forall i :: |r| <= i < |s| ==> IsSpace(s[i])
    ensures r == [] || !IsSpace(r[|r| - 1])
    decreases |s|
  {
    if |s| > 0 && IsSpace(s[|s| - 1]) then RStrip(s[..|s| - 1]) else s
  }

  /** Python `s.strip()`. */
  function Strip(s: string): string
  {
    RStrip(LStrip(s))
  }

  /** A whitespace prefix does not change what `strip()` returns. */
  lemma StripSkip(s: string, m: nat)
    requires m <= |s|
    requires forall i :: 0 <= i < m ==> IsSpace(s[i])
    ensures Strip(s[m..]) == Strip(s)
  {
    LStripBySkip(s, IsSpace, m);
  }

  /** Python `s.split(sep)` for a one-character separator: the pieces
      between separators, always at least one. */
  function Split(s: string, sep: char): (r: seq<string>)
    ensures |r| >= 1
    ensures forall k :: 0 <= k < |r| ==> sep !in r[k]
    decreases |s|
  {
    if |s| == 0 then [""]
    else if s[0] == sep then [""] + Split(s[1..], sep)
    else
      var t := Split(s[1..], sep);
      [[s[0]] + t[0]] + t[1..]
  }

  /** Python `sep.join(parts)` for a one-character separator. */
  function Join(parts: seq<string>, sep: char): string
    decreases |parts|
  {
    if |parts| == 0 then ""
    else if |parts| == 1 then parts[0]
    else parts[0] + [sep] + Join(parts[1..], sep)
  }

  /** Joining the pieces of a split gives the original text back. */
  lemma {:induction false} JoinSplit(s: string, sep: char)
    ensures Join(Split(s, sep), sep) == s
    decreases |s|
  {
    if |s| == 0 {
    } else if s[0] == sep {
      JoinSplit(s[1..], sep);
      assert [""] + Split(s[1..], sep) == Split(s, sep);
      assert Split(s, sep)[1..] == Split(s[1..], sep);
      assert [sep] + s[1..] == s;
    } else {
      var t := Split(s[1..], sep);
      JoinSplit(s[1..], sep);
      var r := Split(s, sep);
      assert r[0] == [s[0]] + t[0];
      if |t| == 1 {
        assert [s[0]] + s[1..] == s;
      } else {
        assert r[1..] == t[1..];
        assert Join(t, sep) == t[0] + [sep] + Join(t[1..], sep);
        assert r[0] + [sep] + Join(r[1..], sep) == [s[0]] + (t[0] + [sep] + Join(t[1..], sep));
        assert [s[0]] + s[1..] == s;
      }
    }
  }

  /** A text without separators splits into itself alone. */
  lemma {:induction false} SplitNoSep(a: string, sep: char)
    requires sep !in a
    ensures Split(a, sep) == [a]
    decreases |a|
  {
    if |a| > 0 {
      assert sep !in a[1..];
      SplitNoSep(a[1..], sep);
      assert [a[0]] + a[1..] == a;
    }
  }

  /** Splitting at the first separator peels off the piece before it. */
  lemma {:induction false} SplitAtSep(a: string, sep: char, rest: string)
    requires sep !in a
    ensures Split(a + [sep] + rest, sep) == [a] + Split(rest, sep)
    decreases |a|
  {
    if |a| == 0 {
      assert a + [sep] + rest == [sep] + rest;
      assert ([sep] + rest)[1..] == rest;
    } else {
      var s := a + [sep] + rest;
      assert s[0] == a[0] && s[0] != sep;
      assert s[1..] == a[1..] + [sep] + rest;
      assert sep !in a[1..];
      SplitAtSep(a[1..], sep, rest);
      assert [a[0]] + a[1..] == a;
    }
  }

  /** Splitting a join of separator-free pieces gives the pieces back. */
  lemma {:induction false} SplitJoin(parts: seq<string>, sep: char)
    requires |parts| >= 1
    requires forall k :: 0 <= k < |parts| ==> sep !in parts[k]
    ensures Split(Join(parts, sep), sep) == parts
    decreases |parts|
  {
    if |parts| == 1 {
      SplitNoSep(parts[0], sep);
    } else {
      SplitJoin(parts[1..], sep);
      SplitAtSep(parts[0], sep, Join(parts[1..], sep));
      assert [parts[0]] + parts[1..] == parts;
    }
  }

  /** Python's normalisation of one slice bound against a length `n`:
      a negative bound counts from the end, and the result is clamped to
      `0..n`. */
  function SliceBound(i: int, n: nat): (b: nat)
    ensures b <= n
    ensures 0 <= i <= n ==> b == i
    ensures i < 0 && 0 <= i + n ==> b == i + n
  {
    if i < 0 then (if i + n < 0 then 0 else i + n)
    else if i > n then n
    else i
  }

  /** Python `s[i:j]`. */
  function Slice(s: string, i: int, j: int): (r: string)
    ensures |r| <= |s|
  {
    var a := SliceBound(i, |s|);
    var b := SliceBound(j, |s|);
    if a < b then s[a..b] else ""
  }
}

=== FILE: traceback.dfy ===
/** The traceback renderer (`get_traceback_top`, `print_backframes`,
    `print_exception`) as a pure function from frames to output items.
    Colours are tags; the ANSI strings behind them are not modelled. A
    frame carries the source lines the renderer would read for it. */
module Traceback {
  import opened Text
  import opened Options

  datatype Color = Norm | Red | Yellow | Magenta

  /** What the renderer reads of one frame: its identity, `inspect.getfile`
      (`None` when that raises `TypeError`), `f_lineno`, the first line
      number and lines of its source, and whether its code is the session's
      interactive unit. */
  datatype FrameInfo = FrameInfo(
    id: nat,
    path: Option<string>,
    line: int,
    firstLine: int,
    lines: seq<string>,
    interactive: bool)

  /** A frame and its caller link `f_back`. */
  datatype Frame = Frame(info: FrameInfo, back: Option<Frame>)

  /** A traceback link: its frame, `tb_lineno` and `tb_next`. */
  datatype Traceback = Traceback(frame: Frame, line: int, next: Option<Traceback>)

  /** The traceback entry `print_backframes` may be given: the failing
      frame's identity and the failing line. */
  datatype Failure = Failure(frameId: nat, line: int)

  /** One printed line of the rendering. */
  datatype Item =
    | Header(path: string)                                      // path of a run of frames
    | Context(color: Color, lineno: int, text: string)          // `print_context_line`
    | Ellipsis                                                  // `...` at the window's edge
    | ExceptionLine(name: string, message: Option<string>)      // first line of `print_exception`
    | Marked(lineno: int, before: string, marked: string, after: string)  // syntax error line

  /** `max_context_lines`. */
  const ContextLines: int := 3

  /** The path shown when `inspect.getfile` raises `TypeError`. */
  const UnknownPath: string := "<unknown path>"

  /** The links of a traceback from the outermost, following `tb_next`. */
  function Links(tb: Traceback): (r: seq<Traceback>)
    ensures |r| >= 1 && r[0] == tb
    decreases tb
  {
    [tb] + (if tb.next.None? then [] else Links(tb.next.value))
  }

  /** `get_traceback_top`: the frame of the innermost traceback link. */
  function GetTracebackTop(tb: Traceback): (top: Frame)
    ensures top == Links(tb)[|Links(tb)| - 1].frame
    decreases tb
  {
    if tb.next.None? then tb.frame else GetTracebackTop(tb.next.value)
  }

  /** The frames from the outermost caller down to `f`. */
  function Chain(f: Frame): (r: seq<FrameInfo>)
    ensures |r| >= 1 && r[|r| - 1] == f.info
    decreases f
  {
    (if f.back.None? then [] else Chain(f.back.value)) + [f.info]
  }

  /** The frames from `f` up to the outermost caller, as the walk along
      `f_back` meets them. */
  function Walk(f: Frame): (r: seq<FrameInfo>)
    ensures |r| >= 1 && r[0] == f.info
    decreases f
  {
    [f.info] + (if f.back.None? then [] else Walk(f.back.value))
  }

  function Reverse<T>(s: seq<T>): (r: seq<T>)
    ensures |r| == |s|
    ensures forall i :: 0 <= i < |s| ==> r[i] == s[|s| - 1 - i]
    decreases |s|
  {
    if |s| == 0 then [] else Reverse(s[1..]) + [s[0]]
  }

  /** The walk along `f_back`, reversed, is the chain from the outermost
      caller. */
  lemma {:induction false} WalkReversed(f: Frame)
    ensures Reverse(Walk(f)) == Chain(f)
    decreases f
  {
    if f.back.Some? {
      WalkReversed(f.back.value);
      assert Walk(f)[1..] == Walk(f.back.value);
    }
  }

  /** The frames strictly above `f`, nearest caller first. */
  function Callers(f: Frame): (r: seq<FrameInfo>)
    ensures Walk(f) == [f.info] + r
  {
    if f.back.None? then [] else Walk(f.back.value)
  }

  /** The frame list of `print_backframes`: walk the callers from `top`,
      then reverse so the outermost frame comes first. */
  method Backframes(top: Frame) returns (frames: seq<FrameInfo>)
    ensures frames == Chain(top)
    ensures frames[|frames| - 1] == top.info
  {
    var walk := [top.info];
    var cur := top;
    while cur.back.Some?
      invariant |walk| >= 1 && walk[|walk| - 1] == cur.info
      invariant Walk(top) == walk + Callers(cur)
      decreases cur
    {
      var next := cur.back.value;
      assert Callers(cur) == [next.info] + Callers(next);
      assert walk + Callers(cur) == (walk + [next.info]) + Callers(next);
      cur := next;
      walk := walk + [cur.info];
    }
    frames := Reverse(walk);
    WalkReversed(top);
  }

  /** The path printed for a frame. */
  function PathOf(f: FrameInfo): string
  {
    match f.path
    case Some(p) => p
    case None => UnknownPath
  }

  /** Whether `f` is the frame of the traceback entry passed in. */
  predicate IsFailureFrame(f: FrameInfo, failure: Option<Failure>)
  {
    failure.Some? && failure.value.frameId == f.id
  }

  /** The line the window around `f` is centred on. */
  function RefLine(f: FrameInfo, failure: Option<Failure>): int
  {
    if IsFailureFrame(f, failure) then failure.value.line else f.line
  }

  /** Colour of line `lineno` of `f`. In the failure's own frame the failing
      line is red and wins over the yellow current line; elsewhere the
      current line is magenta in the interactive unit and red otherwise. */
  function ColorOf(f: FrameInfo, failure: Option<Failure>, lineno: int): (c: Color)
    ensures c == Red <==>
      (IsFailureFrame(f, failure) && lineno == failure.value.line)
      || (!IsFailureFrame(f, failure) && lineno == f.line && !f.interactive)
    ensures c == Yellow <==>
      IsFailureFrame(f, failure) && lineno == f.line && lineno != failure.value.line
    ensures c == Magenta <==> !IsFailureFrame(f, failure) && lineno == f.line && f.interactive
    ensures c == Norm <==> lineno != RefLine(f, failure) && lineno != f.line
  {
    if IsFailureFrame(f, failure) then
      if lineno == failure.value.line then Red
      else if lineno == f.line then Yellow
      else Norm
    else if lineno == f.line then
      if f.interactive then Magenta else Red
    else Norm
  }

  function Abs(x: int): nat
  {
    if x < 0 then -x else x
  }

  /** What line `k` of `f` contributes. */
  function LineItems(f: FrameInfo, failure: Option<Failure>, k: nat): seq<Item>
    requires k < |f.lines|
  {
    var lineno := f.firstLine + k;
    var delta := lineno - RefLine(f, failure);
    if Abs(delta) < ContextLines then [Context(ColorOf(f, failure, lineno), lineno, RStrip(f.lines[k]))]
    else if Abs(delta) == ContextLines then [Ellipsis]
    else []
  }

  /** The items of lines `k..` of `f`. */
  function WindowFrom(f: FrameInfo, failure: Option<Failure>, k: nat): seq<Item>
    decreases |f.lines| - k
  {
    if k >= |f.lines| then [] else LineItems(f, failure, k) + WindowFrom(f, failure, k + 1)
  }

  /** The context window printed for one frame. */
  function Window(f: FrameInfo, failure: Option<Failure>): seq<Item>
  {
    WindowFrom(f, failure, 0)
  }

  /** `print_backframes` over `frames`, where `lastPath` is the path of the
      frame printed before them. */
  function LayoutFrom(frames: seq<FrameInfo>, failure: Option<Failure>, lastPath: Option<string>): seq<Item>
    decreases |frames|
  {
    if |frames| == 0 then []
    else
      var p := PathOf(frames[0]);
      (if Some(p) != lastPath then [Header(p)] else [])
      + Window(frames[0], failure)
      + LayoutFrom(frames[1..], failure, Some(p))
  }

  /** `print_backframes(top, tb)` once the frame list is built. */
  function Layout(frames: seq<FrameInfo>, failure: Option<Failure>): (r: seq<Item>)
    ensures |frames| == 0 ==> r == []
    ensures |frames| > 0 ==> |r| > 0 && r[0] == Header(PathOf(frames[0]))
  {
    LayoutFrom(frames, failure, None)
  }

  /** `print_traceback`: find the innermost frame, walk its callers and
      render them. It passes no traceback entry on, so no failure frame is
      singled out. */
  method PrintTraceback(tb: Traceback) returns (items: seq<Item>)
    ensures items == Layout(Chain(Links(tb)[|Links(tb)| - 1].frame), None)
    ensures |items| > 0 && items[0] == Header(PathOf(Chain(GetTracebackTop(tb))[0]))
  {
    var top := GetTracebackTop(tb);
    var frames := Backframes(top);
    items := Layout(frames, None);
  }

  /** How many line numbers from `from` on lie within three of `ref`. */
  function WindowRoom(from: int, ref: int): nat
  {
    if from > ref + ContextLines then 0
    else if from < ref - ContextLines then 2 * ContextLines + 1
    else ref + ContextLines + 1 - from
  }

  lemma {:induction false} WindowFromBound(f: FrameInfo, failure: Option<Failure>, k: nat)
    ensures |WindowFrom(f, failure, k)| <= WindowRoom(f.firstLine + k, RefLine(f, failure))
    decreases |f.lines| - k
  {
    if k < |f.lines| {
      WindowFromBound(f, failure, k + 1);
    }
  }

  /** A frame prints at most seven items: five context lines and an
      ellipsis on either side. */
  lemma WindowAtMostSeven(f: FrameInfo, failure: Option<Failure>)
    ensures |Window(f, failure)| <= 2 * ContextLines + 1
  {
    WindowFromBound(f, failure, 0);
  }

  /** Line `j` of `f` is printed as the context line `Context(c, n, t)`. */
  predicate ContextAt(f: FrameInfo, failure: Option<Failure>, j: int, c: Color, n: int, t: string)
  {
    0 <= j < |f.lines| && n == f.firstLine + j && Abs(n - RefLine(f, failure)) < ContextLines
    && t == RStrip(f.lines[j]) && c == ColorOf(f, failure, n)
  }

  /** Line `j` of `f` is exactly three from the reference line. */
  predicate EllipsisAt(f: FrameInfo, failure: Option<Failure>, j: int)
  {
    0 <= j < |f.lines| && Abs(f.firstLine + j - RefLine(f, failure)) == ContextLines
  }

  /** The context lines of a window are exactly the lines less than three
      from the reference line, each with its colour and stripped text. */
  lemma {:induction false} WindowContextLines(f: FrameInfo, failure: Option<Failure>, k: nat, c: Color, n: int, t: string)
    ensures Context(c, n, t) in WindowFrom(f, failure, k) <==>
      exists j :: k <= j && ContextAt(f, failure, j, c, n, t)
    decreases |f.lines| - k
  {
    if k < |f.lines| {
      WindowContextLines(f, failure, k + 1, c, n, t);
      var here := LineItems(f, failure, k);
      assert WindowFrom(f, failure, k) == here + WindowFrom(f, failure, k + 1);
      assert Context(c, n, t) in here <==> ContextAt(f, failure, k, c, n, t);
      if Context(c, n, t) in WindowFrom(f, failure, k + 1) {
        var j :| k + 1 <= j && ContextAt(f, failure, j, c, n, t);
        assert k <= j;
      }
      if exists j :: k <= j && ContextAt(f, failure, j, c, n, t) {
        var j :| k <= j && ContextAt(f, failure, j, c, n, t);
        if j != k {
          assert k + 1 <= j;
        }
      }
    }
  }

  /** A window holds an ellipsis exactly when some line is three away from
      the reference line, and it never holds a path header. */
  lemma {:induction false} WindowEllipsis(f: FrameInfo, failure: Option<Failure>, k: nat)
    ensures Ellipsis in WindowFrom(f, failure, k) <==> exists j :: k <= j && EllipsisAt(f, failure, j)
    ensures forall p :: Header(p) !in WindowFrom(f, failure, k)
    decreases |f.lines| - k
  {
    if k < |f.lines| {
      WindowEllipsis(f, failure, k + 1);
      var here := LineItems(f, failure, k);
      assert WindowFrom(f, failure, k) == here + WindowFrom(f, failure, k + 1);
      assert Ellipsis in here <==> EllipsisAt(f, failure, k);
      if Ellipsis in WindowFrom(f, failure, k + 1) {
        var j :| k + 1 <= j && EllipsisAt(f, failure, j);
        assert k <= j;
      }
      if exists j :: k <= j && EllipsisAt(f, failure, j) {
        var j :| k <= j && EllipsisAt(f, failure, j);
        if j != k {
          assert k + 1 <= j;
        }
      }
    }
  }

  /** One line contributes at most one item: a context line numbered as
      that line, or an ellipsis. */
  lemma LineItemsShape(f: FrameInfo, failure: Option<Failure>, k: nat)
    requires k < |f.lines|
    ensures |LineItems(f, failure, k)| <= 1
    ensures |LineItems(f, failure, k)| == 1 && LineItems(f, failure, k)[0].Context? ==>
      LineItems(f, failure, k)[0].lineno == f.firstLine + k
    ensures Ellipsis in LineItems(f, failure, k) <==> EllipsisAt(f, failure, k)
    ensures multiset(LineItems(f, failure, k))[Ellipsis] == if EllipsisAt(f, failure, k) then 1 else 0
  {
  }

  /** The lines from `k` on that are exactly three from the reference line. */
  function EllipsisLines(f: FrameInfo, failure: Option<Failure>, k: nat): set<int>
  {
    set j | k <= j < |f.lines| && EllipsisAt(f, failure, j)
  }

  /** How many lines from `k` on are exactly three from the reference line. */
  function Threes(f: FrameInfo, failure: Option<Failure>, k: nat): nat
    decreases |f.lines| - k
  {
    if k >= |f.lines| then 0 else (if EllipsisAt(f, failure, k) then 1 else 0) + Threes(f, failure, k + 1)
  }

  /** The count is the size of the set of such lines. */
  lemma {:induction false} ThreesCountsLines(f: FrameInfo, failure: Option<Failure>, k: nat)
    ensures Threes(f, failure, k) == |EllipsisLines(f, failure, k)|
    decreases |f.lines| - k
  {
    var s := EllipsisLines(f, failure, k);
    if k < |f.lines| {
      ThreesCountsLines(f, failure, k + 1);
      var s1 := EllipsisLines(f, failure, k + 1);
      if EllipsisAt(f, failure, k) {
        assert s == {k} + s1;
        assert k !in s1;
      } else {
        assert s == s1;
      }
    } else {
      assert s == {};
    }
  }

  /** The window from line `k` holds one ellipsis per such line. */
  lemma {:induction false} WindowThrees(f: FrameInfo, failure: Option<Failure>, k: nat)
    ensures multiset(WindowFrom(f, failure, k))[Ellipsis] == Threes(f, failure, k)
    decreases |f.lines| - k
  {
    if k < |f.lines| {
      var here := LineItems(f, failure, k);
      var rest := WindowFrom(f, failure, k + 1);
      assert WindowFrom(f, failure, k) == here + rest;
      CountConcat(here, rest, Ellipsis);
      WindowThrees(f, failure, k + 1);
      LineItemsShape(f, failure, k);
    }
  }

  /** A window prints one ellipsis for each line exactly three away from
      the reference line, so two when both edges lie inside the frame. */
  lemma WindowEllipsisCount(f: FrameInfo, failure: Option<Failure>, k: nat)
    ensures multiset(WindowFrom(f, failure, k))[Ellipsis] == |EllipsisLines(f, failure, k)|
  {
    WindowThrees(f, failure, k);
    ThreesCountsLines(f, failure, k);
  }

  lemma CountConcat<T>(a: seq<T>, b: seq<T>, x: T)
    ensures multiset(a + b)[x] == multiset(a)[x] + multiset(b)[x]
  {
    assert multiset(a + b) == multiset(a) + multiset(b);
  }

  /** Every context line of the window from line `k` is numbered at or
      after line `k`. */
  lemma {:induction false} WindowFromLineBound(f: FrameInfo, failure: Option<Failure>, k: nat)
    ensures forall a :: 0 <= a < |WindowFrom(f, failure, k)| && WindowFrom(f, failure, k)[a].Context? ==>
      WindowFrom(f, failure, k)[a].lineno >= f.firstLine + k
    decreases |f.lines| - k
  {
    if k < |f.lines| {
      WindowFromLineBound(f, failure, k + 1);
      LineItemsShape(f, failure, k);
      var here := LineItems(f, failure, k);
      var rest := WindowFrom(f, failure, k + 1);
      var w := WindowFrom(f, failure, k);
      assert w == here + rest;
      forall a | 0 <= a < |w| && w[a].Context?
        ensures w[a].lineno >= f.firstLine + k
      {
        if a >= |here| {
          assert w[a] == rest[a - |here|];
        }
      }
    }
  }

  /** The context lines of a window come in strictly increasing line order. */
  lemma {:induction false} WindowInLineOrder(f: FrameInfo, failure: Option<Failure>, k: nat)
    ensures forall a, b ::
      0 <= a < b < |WindowFrom(f, failure, k)| && WindowFrom(f, failure, k)[a].Context? && WindowFrom(f, failure, k)[b].Context?
      ==> WindowFrom(f, failure, k)[a].lineno < WindowFrom(f, failure, k)[b].lineno
    decreases |f.lines| - k
  {
    if k < |f.lines| {
      WindowInLineOrder(f, failure, k + 1);
      WindowFromLineBound(f, failure, k + 1);
      LineItemsShape(f, failure, k);
      var here := LineItems(f, failure, k);
      var rest := WindowFrom(f, failure, k + 1);
      var w := WindowFrom(f, failure, k);
      assert w == here + rest;
      forall a, b | 0 <= a < b < |w| && w[a].Context? && w[b].Context?
        ensures w[a].lineno < w[b].lineno
      {
        var b' := b - |here|;
        assert w[b] == rest[b'];
        if a < |here| {
          assert w[a] == here[0];
        } else {
          assert w[a] == rest[a - |here|];
        }
      }
    }
  }

  /** The context lines numbered `n` up to `end` (exclusive), in order. */
  function ContextRun(f: FrameInfo, failure: Option<Failure>, n: int, end: int): seq<Item>
    requires f.firstLine <= n && end <= f.firstLine + |f.lines|
    decreases end - n
  {
    if n >= end then []
    else [Context(ColorOf(f, failure, n), n, RStrip(f.lines[n - f.firstLine]))] + ContextRun(f, failure, n + 1, end)
  }

  /** An ellipsis when line number `n` lies in `lo..hi`, else nothing. */
  function EllipsisIfIn(n: int, lo: int, hi: int): seq<Item>
  {
    if lo <= n < hi then [Ellipsis] else []
  }

  /** The window from line number `lo` on, in closed form: an ellipsis at
      three lines before the reference line, the context lines less than
      three from it in order, and an ellipsis at three lines after it, each
      clipped to the line numbers from `lo` to the frame's last. */
  function ClosedWindow(f: FrameInfo, failure: Option<Failure>, lo: int): seq<Item>
    requires f.firstLine <= lo
  {
    var r, hi := RefLine(f, failure), f.firstLine + |f.lines|;
    EllipsisIfIn(r - ContextLines, lo, hi)
    + ContextRun(f, failure, if r - ContextLines + 1 < lo then lo else r - ContextLines + 1,
                 if r + ContextLines < hi then r + ContextLines else hi)
    + EllipsisIfIn(r + ContextLines, lo, hi)
  }

  /** Each ellipsis sits at its own line's place around the context lines:
      the window is the closed form above. */
  lemma {:induction false} WindowClosedForm(f: FrameInfo, failure: Option<Failure>, k: nat)
    ensures WindowFrom(f, failure, k) == ClosedWindow(f, failure, f.firstLine + k)
    decreases |f.lines| - k
  {
    if k < |f.lines| {
      WindowClosedForm(f, failure, k + 1);
      WindowFromStep(f, failure, k);
    } else {
      ClosedWindowPast(f, failure, f.firstLine + k);
    }
  }

  /** The closed form carries from line `k + 1` back to line `k`. */
  lemma WindowFromStep(f: FrameInfo, failure: Option<Failure>, k: nat)
    requires k < |f.lines|
    requires WindowFrom(f, failure, k + 1) == ClosedWindow(f, failure, f.firstLine + k + 1)
    ensures WindowFrom(f, failure, k) == ClosedWindow(f, failure, f.firstLine + k)
  {
    calc {
      WindowFrom(f, failure, k);
      LineItems(f, failure, k) + WindowFrom(f, failure, k + 1);
      LineItems(f, failure, k) + ClosedWindow(f, failure, f.firstLine + k + 1);
      { ClosedWindowStep(f, failure, k); }
      ClosedWindow(f, failure, f.firstLine + k);
    }
  }

  /** Past the frame's last line the closed form is empty. */
  lemma ClosedWindowPast(f: FrameInfo, failure: Option<Failure>, lo: int)
    requires f.firstLine + |f.lines| <= lo
    ensures ClosedWindow(f, failure, lo) == []
  {
  }

  /** Line `k` contributes what separates the closed forms from `k` and
      from `k + 1`. */
  lemma ClosedWindowStep(f: FrameInfo, failure: Option<Failure>, k: nat)
    requires k < |f.lines|
    ensures ClosedWindow(f, failure, f.firstLine + k)
            == LineItems(f, failure, k) + ClosedWindow(f, failure, f.firstLine + k + 1)
  {
    var r, lo := RefLine(f, failure), f.firstLine + k;
    if lo < r - ContextLines {
      StepBefore(f, failure, k);
    } else if lo == r - ContextLines {
      StepLeadingEllipsis(f, failure, k);
    } else if lo < r + ContextLines {
      StepContext(f, failure, k);
    } else {
      StepAfter(f, failure, k);
    }
  }

  /** A line before the leading ellipsis contributes nothing. */
  lemma StepBefore(f: FrameInfo, failure: Option<Failure>, k: nat)
    requires k < |f.lines| && f.firstLine + k < RefLine(f, failure) - ContextLines
    ensures ClosedWindow(f, failure, f.firstLine + k)
            == LineItems(f, failure, k) + ClosedWindow(f, failure, f.firstLine + k + 1)
  {
  }

  /** The line three before the reference line is the leading ellipsis. */
  lemma StepLeadingEllipsis(f: FrameInfo, failure: Option<Failure>, k: nat)
    requires k < |f.lines| && f.firstLine + k == RefLine(f, failure) - ContextLines
    ensures ClosedWindow(f, failure, f.firstLine + k)
            == LineItems(f, failure, k) + ClosedWindow(f, failure, f.firstLine + k + 1)
  {
  }

  /** A line less than three from the reference line opens the context run. */
  lemma StepContext(f: FrameInfo, failure: Option<Failure>, k: nat)
    requires k < |f.lines|
    requires RefLine(f, failure) - ContextLines < f.firstLine + k < RefLine(f, failure) + ContextLines
    ensures ClosedWindow(f, failure, f.firstLine + k)
            == LineItems(f, failure, k) + ClosedWindow(f, failure, f.firstLine + k + 1)
  {
  }

  /** From three after the reference line on, only the trailing ellipsis is left. */
  lemma StepAfter(f: FrameInfo, failure: Option<Failure>, k: nat)
    requires k < |f.lines| && RefLine(f, failure) + ContextLines <= f.firstLine + k
    ensures ClosedWindow(f, failure, f.firstLine + k)
            == LineItems(f, failure, k) + ClosedWindow(f, failure, f.firstLine + k + 1)
  {
  }

  /** Whether frame `i` is preceded by a header: the first frame when its
      path differs from `lastPath`, any later one when its path differs from
      the frame before it. */
  predicate HeaderAt(frames: seq<FrameInfo>, lastPath: Option<string>, i: nat)
    requires i < |frames|
  {
    if i == 0 then Some(PathOf(frames[0])) != lastPath
    else PathOf(frames[i - 1]) != PathOf(frames[i])
  }

  /** The block printed for frame `i`. */
  function Block(frames: seq<FrameInfo>, failure: Option<Failure>, lastPath: Option<string>, i: nat): seq<Item>
    requires i < |frames|
  {
    (if HeaderAt(frames, lastPath, i) then [Header(PathOf(frames[i]))] else [])
    + Window(frames[i], failure)
  }

  /** The blocks of frames `i..`, in order. */
  function Blocks(frames: seq<FrameInfo>, failure: Option<Failure>, lastPath: Option<string>, i: nat): seq<Item>
    decreases |frames| - i
  {
    if i >= |frames| then [] else Block(frames, failure, lastPath, i) + Blocks(frames, failure, lastPath, i + 1)
  }

  /** The rendering is the frames' blocks from the outermost frame in: one
      header per run of frames sharing a path, then each frame's window. */
  lemma {:induction false} LayoutIsBlocks(frames: seq<FrameInfo>, failure: Option<Failure>, lastPath: Option<string>, i: nat)
    requires i <= |frames|
    ensures LayoutFrom(frames[i..], failure, if i == 0 then lastPath else Some(PathOf(frames[i - 1])))
            == Blocks(frames, failure, lastPath, i)
    decreases |frames| - i
  {
    if i < |frames| {
      LayoutIsBlocks(frames, failure, lastPath, i + 1);
      assert frames[i..][1..] == frames[i + 1..];
    }
  }

  /** The items of all the frames' windows, without headers. */
  function Windows(frames: seq<FrameInfo>, failure: Option<Failure>): seq<Item>
    decreases |frames|
  {
    if |frames| == 0 then [] else Window(frames[0], failure) + Windows(frames[1..], failure)
  }

  lemma {:induction false} WindowsHaveNoHeader(frames: seq<FrameInfo>, failure: Option<Failure>)
    ensures forall i :: 0 <= i < |Windows(frames, failure)| ==> !Windows(frames, failure)[i].Header?
    decreases |frames|
  {
    if |frames| > 0 {
      var w := Window(frames[0], failure);
      WindowEllipsis(frames[0], failure, 0);
      WindowsHaveNoHeader(frames[1..], failure);
      forall i | 0 <= i < |w|
        ensures !w[i].Header?
      {
        assert w[i] in w;
      }
    }
  }

  lemma {:induction false} SamePathLayout(frames: seq<FrameInfo>, failure: Option<Failure>, p: string)
    requires forall i :: 0 <= i < |frames| ==> PathOf(frames[i]) == p
    ensures LayoutFrom(frames, failure, Some(p)) == Windows(frames, failure)
    decreases |frames|
  {
    if |frames| > 0 {
      SamePathLayout(frames[1..], failure, p);
    }
  }

  /** Frames that all share one path get exactly one header, first. */
  lemma SamePathOneHeader(frames: seq<FrameInfo>, failure: Option<Failure>, p: string)
    requires |frames| > 0
    requires forall i :: 0 <= i < |frames| ==> PathOf(frames[i]) == p
    ensures Layout(frames, failure) == [Header(p)] + Windows(frames, failure)
    ensures forall i :: 0 < i < |Layout(frames, failure)| ==> !Layout(frames, failure)[i].Header?
  {
    SamePathLayout(frames[1..], failure, p);
    var rest := Windows(frames, failure);
    assert rest == Window(frames[0], failure) + Windows(frames[1..], failure);
    assert Layout(frames, failure) == [Header(p)] + rest;
    WindowsHaveNoHeader(frames, failure);
  }

  /** The three parts `text[:offset-1]`, `text[offset-1:offset]` and
      `text[offset:]` of a syntax error's text, with Python slicing. */
  function SyntaxParts(text: string, offset: int): (parts: (string, string, string))
    ensures |parts.1| <= 1
    ensures 1 <= offset ==> parts.0 + parts.1 + parts.2 == text
    ensures 1 <= offset <= |text| ==> parts.1 == [text[offset - 1]]
  {
    var parts := (Slice(text, 0, offset - 1), Slice(text, offset - 1, offset), Slice(text, offset, |text|));
    assert 1 <= offset <= |text| ==> text[..offset - 1] + text[offset - 1..offset] + text[offset..] == text;
    assert 1 <= offset && offset > |text| ==> parts.0 == text;
    parts
  }

  /** With an offset of zero Python's negative index takes over: the text
      up to its last character comes first and the whole text after it, so
      the printed line repeats all but the last character. */
  lemma ZeroOffsetRepeats(text: string)
    requires |text| > 1
    ensures var parts := SyntaxParts(text, 0);
            parts == (text[..|text| - 1], "", text)
            && parts.0 + parts.1 + parts.2 != text
  {
    var parts := SyntaxParts(text, 0);
    assert SliceBound(-1, |text|) == |text| - 1;
    assert parts.0 == text[..|text| - 1];
    assert parts.1 == "";
    assert parts.2 == text;
    assert |parts.0 + parts.1 + parts.2| == 2 * |text| - 1;
  }

  /** The syntax error's line split around offset `o`, right-stripped as
      printed. */
  function MarkedLine(lineno: int, text: string, o: int): (item: Item)
    ensures item.Marked? && item.lineno == lineno && |item.marked| <= 1
    ensures o >= 1 ==>
      var shown := item.before + item.marked + item.after;
      shown <= text && forall i :: |shown| <= i < |text| ==> IsSpace(text[i])
    ensures 1 <= o <= |text| ==> item.before == text[..o - 1] && item.marked == [text[o - 1]]
  {
    var parts := SyntaxParts(text, o);
    if o >= 1 then
      ShownPrefix(text, o);
      Marked(lineno, parts.0, parts.1, RStrip(parts.2))
    else
      Marked(lineno, parts.0, parts.1, RStrip(parts.2))
  }

  /** The three parts with the last one right-stripped form a prefix of the
      text, and only whitespace of the text follows it. */
  lemma ShownPrefix(text: string, o: int)
    requires o >= 1
    ensures var parts := SyntaxParts(text, o);
            var shown := parts.0 + parts.1 + RStrip(parts.2);
            shown <= text && forall i :: |shown| <= i < |text| ==> IsSpace(text[i])
  {
    var parts := SyntaxParts(text, o);
    StripTail(parts.0 + parts.1, parts.2);
  }

  /** Right-stripping the tail of `head + tail` keeps a prefix and drops
      only whitespace. */
  lemma StripTail(head: string, tail: string)
    ensures head + RStrip(tail) <= head + tail
    ensures forall i :: |head + RStrip(tail)| <= i < |head + tail| ==> IsSpace((head + tail)[i])
  {
    var after := RStrip(tail);
    assert tail == after + tail[|after|..];
    assert head + tail == (head + after) + tail[|after|..];
    forall i | |head + after| <= i < |head + tail|
      ensures IsSpace((head + tail)[i])
    {
      assert (head + tail)[i] == tail[i - |head|];
    }
  }

  /** `print_exception`: the exception's qualified name and, when `str(ex)`
      is not empty, its message; for a syntax error with a text, the
      offending line, split around the offset when there is one. The
      printed line is right-stripped as a whole, which only reaches into
      the part after the marked character. */
  function PrintException(name: string, message: string, syntax: Option<(int, string, Option<int>)>): (items: seq<Item>)
    ensures |items| >= 1 && items[0].ExceptionLine? && items[0].name == name
    ensures items[0].message.None? <==> message == ""
    ensures items[0].message.Some? ==> items[0].message.value == message
    ensures |items| == 2 <==> syntax.Some?
    ensures syntax.Some? && syntax.value.2.None? ==> items[1] == Context(Norm, syntax.value.0, RStrip(syntax.value.1))
    ensures syntax.Some? && syntax.value.2.Some? ==>
      items[1] == MarkedLine(syntax.value.0, syntax.value.1, syntax.value.2.value)
  {
    var first := ExceptionLine(name, if message == "" then None else Some(message));
    match syntax
    case None => [first]
    case Some((lineno, text, offset)) =>
      match offset
      case None => [first, Context(Norm, lineno, RStrip(text))]
      case Some(o) => [first, MarkedLine(lineno, text, o)]
  }
}

